=== FILE: README.md ===
# sports_line_scrape in Dafny

A model of the odds scraper in `src/sports_line_scrape/__init__.py`. The scraper
fetches a SportsLine odds page and finds the page state embedded in its
`__NEXT_DATA__` script element. It decodes that state and walks down to the list of
events (`competitionOdds`). It then flattens every event into one record, which holds:

- the game's date and date-time in the caller's time zone;
- the two teams' names, locations, nicknames and abbreviations;
- nine maps, from sportsbook name to a spread, total or moneyline figure.

The model covers the pure core:

- `extract_json`, `get_odds`, `safe_cast` and `get_game_data`;
- the line-variant key naming;
- the `scrape_games` loop once the page text is in hand.

Modules, in dependency order:

| module | file | what it holds |
|---|---|---|
| `Wrappers` | `wrappers.dfy` | `Option`, and `Result` usable with `:-` |
| `Json` | `json.dfy` | decoded JSON values. Python dicts are insertion-ordered association lists. Subscription, `in`, `.keys()`, iteration and chained subscription (`Walk`) |
| `Coerce` | `coerce.dfy` | Python's `float(x)` and `int(x)` on decoded values, with their exceptions, and `safe_cast` |
| `Payload` | `payload.dfy` | `JSON_REGEX`, `extract_json`, `get_odds` |
| `Builder` | `builder.dfy` | a record built by a sequence of dict assignments inside one `try` block. The first exception ends the block, and the record as built so far is returned |
| `Normalize` | `normalize.dfy` | `get_game_data`: the field tables, the leaf-key naming, and the statements of the block in source order |
| `GameDataLemmas` | `game_data_lemmas.dfy` | how the block runs: which fields a record holds, and what the sportsbook loop writes |
| `GameDataFacts` | `game_data_facts.dfy` | the record in the scraper's own terms. When it is complete, what its fields hold, when it is empty, and what it does not depend on |
| `Scrape` | `scrape.dfy` | `scrape_games` after the page has been fetched |

Some library behaviour is outside the model. Each piece is a parameter, so every
property holds for any behaviour of it:

- `Payload.Extractor` is `re.findall` with `json.loads`.
- `Coerce.Parsers` is the parsing of a str by `float()` and `int()`.
- `Normalize.Zone` is `strptime` / `astimezone` / `strftime` for the chosen time zone.

`get_game_data` swallows every exception, so it always returns a dict. The model
produces that dict by running the block's statements (`Normalize.Steps`) until the
first one that raises (`Builder.Exec`).

## Model

| member | source | states |
|---|---|---|
| Json.Get | src/sports_line_scrape/__init__.py:75-77 | `d[k]` has a value exactly when `k` is one of the dict's keys, and that value is stored under `k` |
| Json.Put | src/sports_line_scrape/__init__.py:42-73 | after `d[k] = v`, `d[k]` is `v` and every other key keeps its value. An existing key keeps its position in iteration order, and a new key is appended last |
| Json.Index | src/sports_line_scrape/__init__.py:57-60 | subscription succeeds exactly on a dict holding the key. A missing key raises `KeyError` naming it; subscribing a non-dict raises `TypeError` |
| Json.Contains | src/sports_line_scrape/__init__.py:74 | `key in event` is key membership on a dict. It raises only for values that are not containers |
| Json.KeysOf | src/sports_line_scrape/__init__.py:76 | `.keys()` exists only on a dict, where it gives the dict's keys in insertion order; anything else raises `AttributeError` |
| Json.Iterate | src/sports_line_scrape/__init__.py:123 | `for event in odds` visits the elements of a list, the keys of a dict in order, or the one-character strings of a str. Iterating anything else raises `TypeError` |
| Json.Walk | src/sports_line_scrape/__init__.py:22-25 | chained subscription `j[k0][k1]...` from left to right. The empty path gives `j` itself. A successful walk starts on a dict holding the first key, and a walk that starts on anything else raises `TypeError` |
| Json.WalkReaches | src/sports_line_scrape/__init__.py:22-25 | chained subscription along a path yields a value exactly when that value lies at the path, every value on the way being a dict that binds the next key |
| Json.WalkFailure | src/sports_line_scrape/__init__.py:22-25 | a failed chained subscription failed on a key of the path (`KeyError`) or on a value that is not a dict (`TypeError`) |
| Json.WalkAppend | src/sports_line_scrape/__init__.py:77-79 | subscribing along `p + q` is subscribing along `p`, then along `q` from there; a failure on `p` ends it |
| Coerce.Trunc | src/sports_line_scrape/__init__.py:30 | `int()` of a finite float rounds toward zero (used by `Coerce.Convert`) |
| Coerce.Convert | src/sports_line_scrape/__init__.py:30 | `float()` yields a float and `int()` an int. None, lists and dicts raise `TypeError`. `OverflowError` arises exactly for an int too large for a double under `float()`, and for an infinity under `int()`. Nothing else is raised. The values: a bool gives 0 or 1, `int()` of an int and `float()` of a float give the value back, `int()` of a finite float truncates toward zero, `int()` of NaN raises `ValueError`, `float()` of an int is the same number, and a str gives the parser's result, or `ValueError` when the parser has none |
| Coerce.SafeCast | src/sports_line_scrape/__init__.py:28-32 | a successful conversion is returned; `ValueError` and `TypeError` give the default. Only `OverflowError` escapes, and only from an int or a float |
| Coerce.SafeCastDefaultNone | src/sports_line_scrape/__init__.py:28-32 | without a `default` argument, a caught failure yields None |
| Payload.ExtractJson | src/sports_line_scrape/__init__.py:22-25 | a decoding error propagates; otherwise the result is the node at `props.initialState.oddsPageState.pageState.data.competitionOdds` |
| Payload.GetOdds | src/sports_line_scrape/__init__.py:35-38 | a page without the script element yields the empty list; otherwise only the first match is decoded |
| Payload.GetOddsReachesCompetitionOdds | src/sports_line_scrape/__init__.py:35-38 | when the first payload decodes to any value holding a node at `props.initialState.oddsPageState.pageState.data.competitionOdds`, `get_odds` returns that node, whatever else the payload and the later matches hold |
| Payload.GetOddsFailure | src/sports_line_scrape/__init__.py:35-38 | `get_odds` fails only when the script element is present. The error is a decoding error of its first match, a `KeyError` on the descent path, or a `TypeError` |
| Builder.Exec | src/sports_line_scrape/__init__.py:43-108 | the `try` block runs its statements in order and returns the record as it stood when it ended. A run that completes executed no statement that raised, and an empty block returns the record unchanged |
| Builder.Apply | src/sports_line_scrape/__init__.py:78-104 | `game[name][book] = v` succeeds exactly when `game[name]` is a dict. It adds or replaces `book` in that dict only, and the record's keys are unchanged |
| Builder.ExecStopsAtFirstFailure | src/sports_line_scrape/__init__.py:43-108 | a block stopped by an exception returns the record built by the statements before the raising one, all of which completed |
| Builder.ExecAppend | src/sports_line_scrape/__init__.py:43-108 | running two runs of statements in sequence is running the second from where the first ended, unless the first raised |
| Builder.ExecFieldSteps | src/sports_line_scrape/__init__.py:44-73 | a run of field assignments stops exactly at the first value whose computation raised, with that exception. It keeps every assignment before it |
| Builder.AssignedKeys | src/sports_line_scrape/__init__.py:44-73 | assigning distinct new fields appends exactly the fields assigned before the first failure, in order |
| Builder.AssignedValue | src/sports_line_scrape/__init__.py:44-73 | each field assigned before the first failure holds its value |
| Normalize.LinePrefix | src/sports_line_scrape/__init__.py:112 | the current line reads `value` and `outcomeOdds`; the opening line reads `openingValue` and `openingOutcomeOdds` |
| Normalize.FieldKey | src/sports_line_scrape/__init__.py:79 | a leaf key is the line prefix followed by the leaf name. The name is in lower case exactly when the prefix is empty, and capitalised otherwise |
| Normalize.GameData | src/sports_line_scrape/__init__.py:41-108 | `get_game_data` always returns a dict: the block's record as it stood when the block ended. When `scheduledTime` cannot be read or converted, the first statement raises and the result is `{}` |
| Normalize.TeamName | src/sports_line_scrape/__init__.py:57 | the full name is computed exactly when location and nickname are both str, and is `location + " " + nickName` |
| Normalize.LocalTimeOf | src/sports_line_scrape/__init__.py:44-56 | `event["scheduledTime"]` raises `TypeError` on a non-dict event and `KeyError` when the key is missing. A value that is not a str raises `TypeError` in `strptime`. A converted time is the zone's rendering of that str |
| Normalize.TeamResults | src/sports_line_scrape/__init__.py:57-64 | when the full name is computed, location and nickname are str and the name is them joined by a space. On a non-dict event all four subscriptions raise `TypeError` |
| Normalize.BookSteps | src/sports_line_scrape/__init__.py:74-76 | no `sportsBookOdds` key gives no statements. `in` on a value that is not a container raises `TypeError`. `.keys()` on a `sportsBookOdds` that is not a dict raises `AttributeError`. Otherwise the loop runs over that dict's keys in order |
| Normalize.PassSteps | src/sports_line_scrape/__init__.py:77-104 | one pass of the loop body is nine assignments when `sportsbook_odds[sportsbook]` succeeds, and otherwise the single exception that subscription raised |
| Normalize.LoopSteps | src/sports_line_scrape/__init__.py:76-104 | the loop yields between one and nine statements per visited key in total, and exactly nine per key when every key subscribes. On a non-dict the first statement raises `TypeError` |
| Normalize.EntryStepsAt | src/sports_line_scrape/__init__.py:78-104 | the `i`-th statement of a sportsbook's pass stores the value of field `i` under that sportsbook in field `i`'s map, or raises what computing that value raised |
| Normalize.EntryValue | src/sports_line_scrape/__init__.py:78-80 | a missing leaf or a non-dict on the way raises that exception. A converted leaf gives its value, a caught conversion failure gives the field's fallback, and `OverflowError` propagates |
| GameDataLemmas.FieldTables | src/sports_line_scrape/__init__.py:44-73 | the nineteen field names are distinct: ten identity fields, then nine maps |
| GameDataLemmas.GameDataFields | src/sports_line_scrape/__init__.py:41-108 | for any event, the identity fields present are exactly those before the first one whose value raised, in source order, each holding its value. When none raised, all nineteen fields are present, and each map field holds a dict |
| GameDataLemmas.HeaderField | src/sports_line_scrape/__init__.py:44-64 | one identity field of any record holds its value if it came before the first failure, and is absent otherwise |
| GameDataLemmas.ExecEntries | src/sports_line_scrape/__init__.py:74-104 | the sportsbook loop writes only into the nine maps. It keeps every field present and every map a dict, and never changes an identity field |
| GameDataLemmas.EntriesWritten | src/sports_line_scrape/__init__.py:78-104 | a completed pass of the loop body adds the sportsbook to every map, each with its converted value |
| GameDataLemmas.EntriesOther | src/sports_line_scrape/__init__.py:78-104 | a completed pass leaves every map it does not assign unchanged |
| GameDataLemmas.Loop | src/sports_line_scrape/__init__.py:76-104 | after a completed loop, every visited sportsbook holds its converted value in each map, and other keys keep theirs. Distinct new sportsbooks are appended in visiting order |
| GameDataLemmas.EntriesDone | src/sports_line_scrape/__init__.py:78-104 | a pass of the loop body completes exactly when every one of its values is computed without an uncaught exception |
| GameDataLemmas.LoopDone | src/sports_line_scrape/__init__.py:76-104 | the loop completes exactly when every visited key is present and each field of its entry is computed without an uncaught exception |
| GameDataFacts.TeamResultsOk | src/sports_line_scrape/__init__.py:57-64 | a team's four values are all computed exactly when location and nickname are str and the abbreviation is present |
| GameDataFacts.HeaderOkIff | src/sports_line_scrape/__init__.py:44-64 | the ten identity values are all computed exactly when the time converts and both teams are well formed |
| GameDataFacts.BookStepsDone | src/sports_line_scrape/__init__.py:74-104 | the `if "sportsBookOdds" in event` statement completes exactly when there is no such key, or a dict whose entries are all well formed |
| GameDataFacts.CompletesIff | src/sports_line_scrape/__init__.py:41-108 | the block runs without an exception exactly when the identity part and the odds part of the event are both well formed |
| GameDataFacts.CompletedBookMaps | src/sports_line_scrape/__init__.py:65-104 | in a complete record, each map is empty when there is no `sportsBookOdds`. Otherwise it holds every sportsbook key and only those, each with its entry's converted value. With distinct keys, they appear in visiting order |
| GameDataFacts.EmptyRecord | src/sports_line_scrape/__init__.py:41-56 | a record is the empty dict exactly when the scheduled time cannot be read or converted; every event that is not a dict gives the empty dict |
| GameDataFacts.IdentityFields | src/sports_line_scrape/__init__.py:44-64 | with a well-formed identity part, the record has all nineteen fields. It holds the zone's date and date-time, and each team's full name, location, nickname and abbreviation, whatever the odds hold |
| GameDataFacts.NoSportsbookOdds | src/sports_line_scrape/__init__.py:65-74 | with a well-formed identity part and no sportsbooks, the record is complete and all nine maps are empty dicts |
| GameDataFacts.BookDefaults | src/sports_line_scrape/__init__.py:78-104 | the fallbacks are 100 for each odds field, 1 for each spread, and None for the total |
| GameDataFacts.BookDefault | src/sports_line_scrape/__init__.py:78-104 | in a complete record, a sportsbook whose leaf is present but fails conversion with `ValueError` or `TypeError` holds the field's fallback |
| GameDataFacts.LeafPath | src/sports_line_scrape/__init__.py:75-79 | a leaf reached from the event lies under `sportsBookOdds`, which is a dict holding the sportsbook's entry |
| GameDataFacts.IdentityFieldsIgnoreOddsAndLine | src/sports_line_scrape/__init__.py:44-64 | the identity fields depend only on `scheduledTime`, `homeTeam` and `awayTeam`. The odds, the line variant and the number parsing do not affect them |
| Scrape.MapEvents | src/sports_line_scrape/__init__.py:122-124 | one result per event, in event order |
| Scrape.DictOddsYieldEmptyRecords | src/sports_line_scrape/__init__.py:123-124 | when the odds node is a dict, the loop visits its keys, and every record is the empty dict |
| Scrape.ScrapeGames | src/sports_line_scrape/__init__.py:111-126 | failures come in order: `get_odds`, then the time zone, then iterating the odds. Otherwise there is one record per event, in order, each being `get_game_data` of that event. A page without the script element gives the empty list |

## Left out

- Fetching the page (`requests.get`), the URL built from `BASE_URL` and `SPORT_DICT`, and the `KeyError` for an unknown sport: network I/O. `Scrape.ScrapeGames` takes the page text as input.
- `OddsScraper`, `main` and the argument parser: command-line wiring and printing around `scrape_games`.
- The `print` in the `except` clause of `get_game_data`: output only; the returned dict does not depend on it.
- Resolving the time zone (`pytz.timezone(name)` or `tz.tzlocal()`), including its errors, is left to the caller. `Scrape.ScrapeGames` receives the outcome, a zone or an exception, as a parameter.
- Time-zone conversion and the `strptime`/`strftime` formats: `Normalize.Zone` is any partial function from the scheduled-time string to a date and a date-time. A non-str scheduled time raises `TypeError`, as `strptime` does.
- The grammar of `float(str)` and `int(str)`: `Coerce.Parsers` is any partial parser, with `ValueError` where it has no result.
- IEEE rounding: finite floats are exact reals. `float(int)` is exact below the overflow bound, and the bound `2^1024 - 2^970` is the smallest int that rounds to infinity.
- The regular-expression engine and `json.loads`: `Payload.Extractor` is any `findall` and any decoder, which may report any decoding error.
- Dicts with a repeated key, which `json.loads` never produces: lookup then uses the first binding. `GameDataFacts.CompletedBookMaps` states key order only for distinct sportsbook keys.
- GameDataLemmas.Loop: states the contents of a map only for a loop that completes. When an exception ends the loop midway, the record is described only as keeping all nineteen fields and every map a dict (`GameDataLemmas.ExecEntries`).
- `tests/unit_tests.py`: it reads a saved page and prints what `get_odds` and `get_game_data` return, asserting nothing, so it adds no property beyond those above.

Behaviour of the code worth noting:

- The fallback for the two spreads is the int `1` (`default=1`), not a float.
- `competitionOdds` need not be a list. Iterating a dict visits its keys, and each key then yields the empty record (`Scrape.DictOddsYieldEmptyRecords`).
- The time zone is resolved after `get_odds`. A page that fails to decode therefore reports the decoding error, even when the zone name is also invalid.
- `safe_cast` does not catch `OverflowError`, from `float()` of a huge int or `int()` of an infinity. It reaches `get_game_data`'s `except Exception` and ends the record there, leaving it partial.

=== FILE: builder.dfy ===
/** A record built by an ordered sequence of dict assignments inside one
    `try` block: the first exception ends the block, and whatever was assigned
    before it is what the caller gets back. */
module Builder {
  import opened Wrappers
  import opened Json

  /** The per-game dict under construction. */
  type Record = Dict<Json>

  datatype Action =
    | SetField(name: string, value: Json)                 // game[name] = value
    | SetEntry(name: string, book: string, value: Json)   // game[name][book] = value

  /** One statement of the block: an assignment whose right-hand side was computed,
      or the exception computing it raised. */
  datatype Step = Do(action: Action) | Raise(error: Error)

  datatype Outcome = Done(game: Record) | Stopped(game: Record, error: Error)

  /** Performs one assignment; `game[name][book] = v` needs `game[name]` to be a dict. */
  function Apply(g: Record, a: Action): (r: Result<Record, Error>)
    ensures a.SetField? ==> r == Success(Put(g, a.name, a.value))
    ensures a.SetEntry? ==> (r.Success? <==> Get(g, a.name).Some? && Get(g, a.name).value.JObj?)
    ensures a.SetEntry? && r.Success? ==>
              && Keys(r.value) == Keys(g)
              && Get(r.value, a.name) == Some(JObj(Put(Get(g, a.name).value.fields, a.book, a.value)))
              && forall n :: n != a.name ==> Get(r.value, n) == Get(g, n)
  {
    match a
    case SetField(n, v) => Success(Put(g, n, v))
    case SetEntry(n, b, v) =>
      match Get<Json>(g, n)
      case None => Failure(KeyError(n))
      case Some(JObj(d)) => Success(Put(g, n, JObj(Put(d, b, v))))
      case Some(_) => Failure(TypeError)
  }

  /** Runs the steps in order from `g`, stopping at the first exception. */
  function Exec(g: Record, steps: seq<Step>): (o: Outcome)
    ensures o.Done? ==> forall i :: 0 <= i < |steps| ==> steps[i].Do?
    ensures |steps| == 0 ==> o == Done(g)
    decreases |steps|
  {
    if |steps| == 0 then Done(g)
    else match steps[0]
      case Raise(e) => Stopped(g, e)
      case Do(a) =>
        match Apply(g, a)
        case Failure(e) => Stopped(g, e)
        case Success(g') => Exec(g', steps[1..])
  }

  /** A completed first assignment hands the rest of the steps its record. */
  lemma ExecFirst(g: Record, steps: seq<Step>, g1: Record)
    requires |steps| > 0 && steps[0].Do? && Apply(g, steps[0].action) == Success(g1)
    ensures Exec(g, steps) == Exec(g1, steps[1..])
  {
  }

  /** Running `s1 + s2` runs `s2` from where `s1` ended, unless `s1` stopped. */
  lemma {:induction false} ExecAppend(g: Record, s1: seq<Step>, s2: seq<Step>)
    ensures Exec(g, s1 + s2) == (match Exec(g, s1)
                                 case Done(g1) => Exec(g1, s2)
                                 case Stopped(g1, e) => Stopped(g1, e))
    decreases |s1|
  {
    if |s1| == 0 {
      assert s1 + s2 == s2;
    } else {
      assert (s1 + s2)[0] == s1[0];
      assert (s1 + s2)[1..] == s1[1..] + s2;
      if s1[0].Do? && Apply(g, s1[0].action).Success? {
        ExecAppend(Apply(g, s1[0].action).value, s1[1..], s2);
      }
    }
  }

  /** A stopped run returns exactly the record built by the steps before the one
      that raised, all of which completed. */
  lemma {:induction false} ExecStopsAtFirstFailure(g: Record, steps: seq<Step>)
    requires Exec(g, steps).Stopped?
    ensures exists k :: 0 <= k < |steps|
              && Exec(g, steps[..k]) == Done(Exec(g, steps).game)
              && Exec(Exec(g, steps).game, [steps[k]]) == Exec(g, steps)
    decreases |steps|
  {
    if steps[0].Raise? || Apply(g, steps[0].action).Failure? {
      assert steps[..0] == [];
      assert [steps[0]][1..] == [];
    } else {
      var g' := Apply(g, steps[0].action).value;
      ExecStopsAtFirstFailure(g', steps[1..]);
      var k :| 0 <= k < |steps[1..]|
                && Exec(g', steps[1..][..k]) == Done(Exec(g', steps[1..]).game)
                && Exec(Exec(g', steps[1..]).game, [steps[1..][k]]) == Exec(g', steps[1..]);
      assert steps[..k + 1][0] == steps[0];
      assert steps[..k + 1][1..] == steps[1..][..k];
      assert Exec(g, steps[..k + 1]) == Done(Exec(g, steps).game);
    }
  }

  /** Assignment of a computed value to a field, or the exception raised computing it. */
  function ToStep(name: string, r: Result<Json, Error>): Step
  {
    match r
    case Success(v) => Do(SetField(name, v))
    case Failure(e) => Raise(e)
  }

  /** `game[names[i]] = rs[i]` for each `i` in turn. */
  function FieldSteps(names: seq<string>, rs: seq<Result<Json, Error>>): (s: seq<Step>)
    requires |names| == |rs|
    ensures |s| == |names|
    ensures forall i :: 0 <= i < |names| ==> s[i] == ToStep(names[i], rs[i])
  {
    if |names| == 0 then [] else [ToStep(names[0], rs[0])] + FieldSteps(names[1..], rs[1..])
  }

  /** The index of the first failed result, or `|rs|` when none failed. */
  function FirstFailure<T>(rs: seq<Result<T, Error>>): (k: nat)
    ensures k <= |rs|
    ensures forall i :: 0 <= i < k ==> rs[i].Success?
    ensures k < |rs| ==> rs[k].Failure?
  {
    if |rs| == 0 || rs[0].Failure? then 0 else 1 + FirstFailure(rs[1..])
  }

  /** The record after assigning, in order, every value before the first failure. */
  function Assigned(g: Record, names: seq<string>, rs: seq<Result<Json, Error>>): Record
    requires |names| == |rs|
    decreases |names|
  {
    if |names| == 0 || rs[0].Failure? then g
    else Assigned(Put(g, names[0], rs[0].value), names[1..], rs[1..])
  }

  /** Field assignments run until the first failed value and keep all assignments before it. */
  lemma {:induction false} ExecFieldSteps(g: Record, names: seq<string>, rs: seq<Result<Json, Error>>)
    requires |names| == |rs|
    ensures Exec(g, FieldSteps(names, rs)).game == Assigned(g, names, rs)
    ensures Exec(g, FieldSteps(names, rs)).Done? <==> FirstFailure(rs) == |rs|
    ensures FirstFailure(rs) < |rs| ==> Exec(g, FieldSteps(names, rs)).error == rs[FirstFailure(rs)].error
    decreases |names|
  {
    if |names| > 0 && rs[0].Success? {
      ExecFieldSteps(Put(g, names[0], rs[0].value), names[1..], rs[1..]);
    }
  }

  lemma AppendAssoc<T>(a: seq<T>, b: seq<T>, c: seq<T>)
    ensures (a + b) + c == a + (b + c)
  {
  }

  lemma PrefixCons<T>(s: seq<T>, k: nat)
    requires 0 < k <= |s|
    ensures s[..k] == [s[0]] + s[1..][..k - 1]
  {
  }

  /** Assigning fresh distinct names appends exactly the names before the first failure. */
  lemma {:induction false} AssignedKeys(g: Record, names: seq<string>, rs: seq<Result<Json, Error>>)
    requires |names| == |rs|
    requires forall i :: 0 <= i < |names| ==> names[i] !in Keys(g)
    requires Distinct(names)
    ensures Keys(Assigned(g, names, rs)) == Keys(g) + names[..FirstFailure(rs)]
    decreases |names|
  {
    var k := FirstFailure(rs);
    if |names| == 0 || rs[0].Failure? {
      assert names[..k] == [];
    } else {
      var g' := Put(g, names[0], rs[0].value);
      var names', rs' := names[1..], rs[1..];
      assert Keys(g') == Keys(g) + [names[0]];
      forall i | 0 <= i < |names'|
        ensures names'[i] !in Keys(g')
      {
        assert names'[i] == names[i + 1];
        assert names'[i] != names[0];
      }
      assert Distinct(names') by {
        forall a, b | 0 <= a < b < |names'|
          ensures names'[a] != names'[b]
        {
          assert names'[a] == names[a + 1] && names'[b] == names[b + 1];
        }
      }
      AssignedKeys(g', names', rs');
      assert Assigned(g, names, rs) == Assigned(g', names', rs');
      assert k - 1 == FirstFailure(rs');
      PrefixCons(names, k);
      AppendAssoc(Keys(g), [names[0]], names'[..k - 1]);
    }
  }

  /** A field outside the assigned names keeps its value. */
  lemma {:induction false} AssignedOthers(g: Record, names: seq<string>, rs: seq<Result<Json, Error>>, n: string)
    requires |names| == |rs|
    requires n !in names[..FirstFailure(rs)]
    ensures Get(Assigned(g, names, rs), n) == Get(g, n)
    decreases |names|
  {
    if |names| > 0 && rs[0].Success? {
      assert names[0] in names[..FirstFailure(rs)];
      assert names[1..][..FirstFailure(rs[1..])] == names[1..FirstFailure(rs)];
      AssignedOthers(Put(g, names[0], rs[0].value), names[1..], rs[1..], n);
    }
  }

  /** Each distinct name before the first failure holds its value. */
  lemma {:induction false} AssignedValue(g: Record, names: seq<string>, rs: seq<Result<Json, Error>>, i: nat)
    requires |names| == |rs| && Distinct(names)
    requires i < FirstFailure(rs)
    ensures Get(Assigned(g, names, rs), names[i]) == Some(rs[i].value)
    decreases |names|
  {
    var g' := Put(g, names[0], rs[0].value);
    if i == 0 {
      forall j | 0 <= j < FirstFailure(rs[1..])
        ensures names[1..][j] != names[0]
      {
        assert names[1..][j] == names[j + 1];
      }
      assert names[0] !in names[1..][..FirstFailure(rs[1..])];
      AssignedOthers(g', names[1..], rs[1..], names[0]);
    } else {
      assert names[i] == names[1..][i - 1];
      AssignedValue(g', names[1..], rs[1..], i - 1);
    }
  }
}

=== FILE: coerce.dfy ===
/** Python's `float(x)` and `int(x)` on decoded JSON values, and the scraper's
    lenient `safe_cast` around them. */
module Coerce {
  import opened Wrappers
  import opened Json

  /** The `to_type` argument of `safe_cast`. */
  datatype Conv = ToFloat | ToInt

  /** Python's parsing of a str by `float(s)` and `int(s)`: a partial function,
      `None` where Python raises `ValueError`. Its exact grammar is a parameter. */
  datatype Parsers = Parsers(parseFloat: string -> Option<FloatVal>, parseInt: string -> Option<int>)

  function Pow2(n: nat): nat
  {
    if n == 0 then 1 else 2 * Pow2(n - 1)
  }

  /** The smallest int that `float(i)` rounds to infinity, which Python reports
      as `OverflowError`: half-way between the largest double and 2^1024. */
  const FloatOverflowBound: int := Pow2(1024) - Pow2(970)

  /** Python's `int(r)` of a finite float: rounds toward zero. */
  function Trunc(r: real): (i: int)
    ensures r >= 0.0 ==> 0.0 <= i as real <= r < i as real + 1.0
    ensures r < 0.0 ==> i as real - 1.0 < r <= i as real <= 0.0
  {
    if r >= 0.0 then r.Floor else -((-r).Floor)
  }

  /** `to_type(value)`: the converted value, or the exception Python raises. */
  function Convert(value: Json, to: Conv, p: Parsers): (r: Result<Json, Error>)
    ensures r.Success? && to == ToFloat ==> r.value.JFloat?
    ensures r.Success? && to == ToInt ==> r.value.JInt?
    ensures value.JNull? || value.JArr? || value.JObj? ==> r == Failure(TypeError)
    ensures r.Failure? && r.error == OverflowError <==>
              || (to == ToFloat && value.JInt? && (value.i >= FloatOverflowBound || value.i <= -FloatOverflowBound))
              || (to == ToInt && value.JFloat? && (value.f.PosInf? || value.f.NegInf?))
    ensures r.Failure? ==> r.error in {TypeError, ValueError, OverflowError}
    ensures value.JBool? ==> r == Success(if to == ToInt then JInt(if value.b then 1 else 0)
                                          else JFloat(Finite(if value.b then 1.0 else 0.0)))
    ensures to == ToInt && value.JInt? ==> r == Success(value)
    ensures to == ToFloat && value.JFloat? ==> r == Success(value)
    ensures to == ToInt && value.JFloat? && value.f.Finite? ==> r == Success(JInt(Trunc(value.f.r)))
    ensures to == ToInt && value.JFloat? && value.f.NaN? ==> r == Failure(ValueError)
    ensures to == ToFloat && value.JInt? && r.Success? ==> r.value == JFloat(Finite(value.i as real))
    ensures to == ToFloat && value.JStr? ==>
              r == (if p.parseFloat(value.s).Some? then Success(JFloat(p.parseFloat(value.s).value)) else Failure(ValueError))
    ensures to == ToInt && value.JStr? ==>
              r == (if p.parseInt(value.s).Some? then Success(JInt(p.parseInt(value.s).value)) else Failure(ValueError))
  {
    match (to, value)
    case (_, JNull) => Failure(TypeError)
    case (_, JArr(_)) => Failure(TypeError)
    case (_, JObj(_)) => Failure(TypeError)
    case (ToFloat, JBool(b)) => Success(JFloat(Finite(if b then 1.0 else 0.0)))
    case (ToFloat, JInt(i)) =>
      if i >= FloatOverflowBound || i <= -FloatOverflowBound then Failure(OverflowError)
      else Success(JFloat(Finite(i as real)))
    case (ToFloat, JFloat(f)) => Success(JFloat(f))
    case (ToFloat, JStr(s)) =>
      (match p.parseFloat(s)
       case Some(f) => Success(JFloat(f))
       case None => Failure(ValueError))
    case (ToInt, JBool(b)) => Success(JInt(if b then 1 else 0))
    case (ToInt, JInt(i)) => Success(JInt(i))
    case (ToInt, JFloat(f)) =>
      (match f
       case Finite(r) => Success(JInt(Trunc(r)))
       case NaN => Failure(ValueError)
       case _ => Failure(OverflowError))
    case (ToInt, JStr(s)) =>
      (match p.parseInt(s)
       case Some(i) => Success(JInt(i))
       case None => Failure(ValueError))
  }

  /** The exceptions `safe_cast` swallows. */
  predicate Caught(e: Error) {
    e == ValueError || e == TypeError
  }

  /** `safe_cast(value, to_type, default=None)`: the conversion, or `default` when
      the conversion raises `ValueError` or `TypeError`. Any other exception
      (only `OverflowError` can arise) propagates to the caller. */
  function SafeCast(value: Json, to: Conv, p: Parsers, default: Json := JNull): (r: Result<Json, Error>)
    ensures Convert(value, to, p).Success? ==> r == Convert(value, to, p)
    ensures Convert(value, to, p).Failure? && Caught(Convert(value, to, p).error) ==> r == Success(default)
    ensures r.Failure? ==> r == Failure(OverflowError) && Convert(value, to, p) == r
    ensures value.JNull? || value.JStr? || value.JArr? || value.JObj? || value.JBool? ==> r.Success?
  {
    match Convert(value, to, p)
    case Success(v) => Success(v)
    case Failure(e) => if Caught(e) then Success(default) else Failure(e)
  }

  /** With no `default` argument, a failed conversion yields None. */
  lemma SafeCastDefaultNone(value: Json, to: Conv, p: Parsers)
    requires Convert(value, to, p).Failure? && Caught(Convert(value, to, p).error)
    ensures SafeCast(value, to, p) == Success(JNull)
  {
  }
}

=== FILE: game_data_facts.dfy ===
/** Consequences of the model of `get_game_data` in the scraper's own terms:
    when a record is complete, what its identity fields and sportsbook maps hold,
    and which inputs give an empty or a partial record. Each fact is about one
    call `GameData(event, zone, line, p)` and follows from the lemmas about the
    statement sequences in `GameDataLemmas`. */
module GameDataFacts {
  import opened Wrappers
  import opened Json
  import opened Coerce
  import opened Builder
  import opened Normalize
  import opened GameDataLemmas

  /** A team whose location and nickname are str and whose abbreviation is present. */
  predicate TeamOk(event: Json, team: string) {
    && Walk(event, [team, "location"]).Success? && Walk(event, [team, "location"]).value.JStr?
    && Walk(event, [team, "nickName"]).Success? && Walk(event, [team, "nickName"]).value.JStr?
    && Walk(event, [team, "abbr"]).Success?
  }

  /** The identity part of an event: a scheduled time the zone accepts and two
      well-formed teams. */
  predicate HeaderOk(event: Json, zone: Zone) {
    LocalTimeOf(event, zone).Success? && TeamOk(event, "homeTeam") && TeamOk(event, "awayTeam")
  }

  /** The odds part of an event: a dict that either has no `sportsBookOdds`, or has
      a dict there whose every entry is well formed. */
  predicate OddsOk(event: Json, line: string, p: Parsers) {
    && event.JObj?
    && ("sportsBookOdds" in Keys(event.fields) ==>
          var odds := Get(event.fields, "sportsBookOdds").value;
          odds.JObj? && forall b :: b in Keys(odds.fields) ==> EntryOk(Get(odds.fields, b).value, line, p))
  }

  /** A scheduled time that converts means the event is a dict. */
  lemma LocalTimeObject(event: Json, zone: Zone)
    requires LocalTimeOf(event, zone).Success?
    ensures event.JObj?
  {
  }

  predicate AllSuccess<T>(rs: seq<Result<T, Error>>) {
    forall i :: 0 <= i < |rs| ==> rs[i].Success?
  }

  lemma AllSuccessAppend<T>(a: seq<Result<T, Error>>, b: seq<Result<T, Error>>)
    ensures AllSuccess(a + b) <==> AllSuccess(a) && AllSuccess(b)
  {
    if AllSuccess(a) && AllSuccess(b) {
      forall i | 0 <= i < |a + b|
        ensures (a + b)[i].Success?
      {
        if i >= |a| {
          assert (a + b)[i] == b[i - |a|];
        }
      }
    }
    if AllSuccess(a + b) {
      forall i | 0 <= i < |a|
        ensures a[i].Success?
      {
        assert (a + b)[i] == a[i];
      }
      forall i | 0 <= i < |b|
        ensures b[i].Success?
      {
        assert (a + b)[|a| + i] == b[i];
      }
    }
  }

  lemma AllSuccessPair<T>(rs: seq<Result<T, Error>>)
    requires |rs| == 2
    ensures AllSuccess(rs) <==> rs[0].Success? && rs[1].Success?
  {
  }

  lemma AllSuccessFour<T>(rs: seq<Result<T, Error>>)
    requires |rs| == 4
    ensures AllSuccess(rs) <==> rs[0].Success? && rs[1].Success? && rs[2].Success? && rs[3].Success?
  {
  }

  /** The four values of a team are all computed exactly when the team is well formed. */
  lemma TeamResultsOk(event: Json, team: string)
    ensures AllSuccess(TeamResults(event, team)) <==> TeamOk(event, team)
  {
    var tr := TeamResults(event, team);
    AllSuccessFour(tr);
    var name := TeamName(event, team);
    assert tr == [name, Walk(event, [team, "location"]), Walk(event, [team, "nickName"]), Walk(event, [team, "abbr"])];
  }

  /** The identity values are all computed exactly when the event's identity part is well formed. */
  lemma HeaderOkIff(event: Json, zone: Zone)
    ensures FirstFailure(HeaderResults(event, zone)) == |HeaderNames| <==> HeaderOk(event, zone)
  {
    var times := TimeResults(LocalTimeOf(event, zone));
    var home := TeamResults(event, "homeTeam");
    var away := TeamResults(event, "awayTeam");
    AllSuccessPair(times);
    AllSuccessAppend(times, home);
    AllSuccessAppend(times + home, away);
    TeamResultsOk(event, "homeTeam");
    TeamResultsOk(event, "awayTeam");
  }

  /** From a shaped record, the `if "sportsBookOdds" in event` statement and its loop
      complete exactly when the odds part of the event is well formed. */
  lemma BookStepsDone(g: Record, event: Json, line: string, p: Parsers)
    requires Shaped(g) && event.JObj?
    ensures Exec(g, BookSteps(event, line, p)).Done? <==> OddsOk(event, line, p)
  {
    if "sportsBookOdds" in Keys(event.fields) {
      var odds := Index(event, "sportsBookOdds").value;
      if odds.JObj? {
        LoopDone(g, odds, Keys(odds.fields), line, p);
        forall b | b in Keys(odds.fields)
          ensures Index(odds, b).Success? && Index(odds, b).value == Get(odds.fields, b).value
        {
        }
      }
    }
  }

  /** The first nineteen statements completed and the loop ran from the record they built. */
  lemma CompletedRun(event: Json, zone: Zone, line: string, p: Parsers)
    requires FirstFailure(HeaderResults(event, zone)) == |HeaderNames|
    ensures var o := Exec([], HeaderSteps(event, zone));
            && o.Done? && Shaped(o.game)
            && (forall i :: 0 <= i < |BookNames| ==> Get(o.game, BookNames[i]) == Some(JObj([])))
            && Exec([], Steps(event, zone, line, p)) == Exec(o.game, BookSteps(event, line, p))
  {
    HeaderRun(event, zone);
    ExecAppend([], HeaderSteps(event, zone), BookSteps(event, line, p));
  }

  /** `get_game_data` runs its whole block without an exception exactly when the
      identity part and the odds part of the event are well formed. */
  lemma CompletesIff(event: Json, zone: Zone, line: string, p: Parsers)
    ensures Completes(event, zone, line, p) <==> HeaderOk(event, zone) && OddsOk(event, line, p)
  {
    HeaderOkIff(event, zone);
    if FirstFailure(HeaderResults(event, zone)) == |HeaderNames| {
      CompletedRun(event, zone, line, p);
      LocalTimeObject(event, zone);
      BookStepsDone(Exec([], HeaderSteps(event, zone)).game, event, line, p);
    } else {
      HeaderRun(event, zone);
      ExecAppend([], HeaderSteps(event, zone), BookSteps(event, line, p));
    }
  }

  /** The record of an event that completes: all nineteen fields; each sportsbook map
      is empty when the event has no `sportsBookOdds`, and otherwise holds, for every
      sportsbook key and only for those, the converted value of its entry, in the
      order the keys are visited. */
  lemma CompletedBookMaps(event: Json, zone: Zone, line: string, p: Parsers, i: nat)
    requires Completes(event, zone, line, p) && i < |BookNames|
    ensures event.JObj?
    ensures var g := GameData(event, zone, line, p);
            var m := BookMap(g, BookNames[i]);
            && Keys(g) == FieldOrder
            && Get(g, BookNames[i]) == Some(JObj(m))
            && ("sportsBookOdds" !in Keys(event.fields) ==> m == [])
            && ("sportsBookOdds" in Keys(event.fields) ==>
                  var odds := Get(event.fields, "sportsBookOdds").value;
                  && odds.JObj?
                  && (forall b :: b in Keys(odds.fields) ==>
                        Get(m, b).Some? && EntryValue(Get(odds.fields, b).value, BookFields[i], line, p) == Success(Get(m, b).value))
                  && (forall b :: b !in Keys(odds.fields) ==> Get(m, b) == None)
                  && (Distinct(Keys(odds.fields)) ==> Keys(m) == Keys(odds.fields)))
  {
    CompletedStart(event, zone, line, p);
    var g0 := Exec([], HeaderSteps(event, zone)).game;
    var g := GameData(event, zone, line, p);
    if "sportsBookOdds" in Keys(event.fields) {
      var odds := Get(event.fields, "sportsBookOdds").value;
      assert BookSteps(event, line, p) == LoopSteps(odds, Keys(odds.fields), line, p);
      LoopMaps(g0, g, odds, line, p, i);
    } else {
      assert BookSteps(event, line, p) == [];
      ShapedBookMap(g, i);
    }
  }

  /** A completed block completed its identity part, leaving every map empty, and then its odds part. */
  lemma CompletedStart(event: Json, zone: Zone, line: string, p: Parsers)
    requires Completes(event, zone, line, p)
    ensures event.JObj?
    ensures "sportsBookOdds" in Keys(event.fields) ==> Get(event.fields, "sportsBookOdds").value.JObj?
    ensures var g0 := Exec([], HeaderSteps(event, zone)).game;
            && Shaped(g0)
            && (forall i :: 0 <= i < |BookNames| ==> BookMap(g0, BookNames[i]) == [])
            && Exec(g0, BookSteps(event, line, p)) == Done(GameData(event, zone, line, p))
  {
    CompletesIff(event, zone, line, p);
    HeaderOkIff(event, zone);
    LocalTimeObject(event, zone);
    CompletedRun(event, zone, line, p);
  }

  /** The map of a shaped record is the dict stored under its name. */
  lemma ShapedBookMap(g: Record, i: nat)
    requires Shaped(g) && i < |BookNames|
    ensures Keys(g) == FieldOrder
    ensures Get(g, BookNames[i]) == Some(JObj(BookMap(g, BookNames[i])))
  {
  }

  /** The sportsbook loop over all keys of a dict, from a record whose map is empty. */
  lemma LoopMaps(g0: Record, g: Record, odds: Json, line: string, p: Parsers, i: nat)
    requires Shaped(g0) && i < |BookNames| && BookMap(g0, BookNames[i]) == [] && odds.JObj?
    requires Exec(g0, LoopSteps(odds, Keys(odds.fields), line, p)) == Done(g)
    ensures var m := BookMap(g, BookNames[i]);
            && Keys(g) == FieldOrder
            && Get(g, BookNames[i]) == Some(JObj(m))
            && (forall b :: b in Keys(odds.fields) ==>
                  Get(m, b).Some? && EntryValue(Get(odds.fields, b).value, BookFields[i], line, p) == Success(Get(m, b).value))
            && (forall b :: b !in Keys(odds.fields) ==> Get(m, b) == None)
            && (Distinct(Keys(odds.fields)) ==> Keys(m) == Keys(odds.fields))
  {
    var books := Keys(odds.fields);
    var m := BookMap(g, BookNames[i]);
    Loop(g0, odds, books, line, p, i);
    ShapedBookMap(g, i);
    forall b | b in books
      ensures Get(m, b).Some? && EntryValue(Get(odds.fields, b).value, BookFields[i], line, p) == Success(Get(m, b).value)
    {
      assert Index(odds, b).value == Get(odds.fields, b).value;
    }
    forall b | b !in books
      ensures Get(m, b) == None
    {
      assert Get(BookMap(g0, BookNames[i]), b) == None;
    }
    if Distinct(books) {
      assert Keys(BookMap(g0, BookNames[i])) + books == books;
    }
  }

  /** An event yields the empty dict exactly when its scheduled time cannot be read
      or converted, which includes every event that is not a dict. */
  lemma EmptyRecord(event: Json, zone: Zone, line: string, p: Parsers)
    ensures GameData(event, zone, line, p) == [] <==> LocalTimeOf(event, zone).Failure?
    ensures !event.JObj? ==> GameData(event, zone, line, p) == []
  {
    var hr := HeaderResults(event, zone);
    var g := GameData(event, zone, line, p);
    assert hr[0].Failure? <==> LocalTimeOf(event, zone).Failure?;
    if LocalTimeOf(event, zone).Failure? {
      assert FirstFailure(hr) == 0;
      GameDataFields(event, zone, line, p);
      assert Keys(g) == [];
    } else {
      HeaderField(event, zone, line, p, 0);
    }
  }

  /** The four fields a team contributes: full name, location, nickname and abbreviation. */
  predicate TeamFields(g: Record, event: Json, team: string, names: seq<string>)
    requires TeamOk(event, team) && |names| == 4
  {
    var loc := Walk(event, [team, "location"]).value;
    var nick := Walk(event, [team, "nickName"]).value;
    && Get(g, names[0]) == Some(JStr(loc.s + " " + nick.s))
    && Get(g, names[1]) == Some(loc)
    && Get(g, names[2]) == Some(nick)
    && Get(g, names[3]) == Some(Walk(event, [team, "abbr"]).value)
  }

  /** A record whose identity values were all computed holds all nineteen fields. */
  lemma HeaderKeys(event: Json, zone: Zone, line: string, p: Parsers)
    requires FirstFailure(HeaderResults(event, zone)) == |HeaderNames|
    ensures Keys(GameData(event, zone, line, p)) == FieldOrder
  {
    GameDataFields(event, zone, line, p);
  }

  /** The identity fields of a record whose identity values were all computed. */
  lemma HeaderValues(event: Json, zone: Zone, line: string, p: Parsers)
    requires FirstFailure(HeaderResults(event, zone)) == |HeaderNames|
    ensures forall i :: 0 <= i < |HeaderNames| ==>
              Get(GameData(event, zone, line, p), HeaderNames[i]) == Some(HeaderResults(event, zone)[i].value)
  {
    GameDataFields(event, zone, line, p);
  }

  /** The values a well-formed identity part yields. */
  lemma HeaderResultValues(event: Json, zone: Zone)
    requires HeaderOk(event, zone)
    ensures var hr := HeaderResults(event, zone);
            var t := LocalTimeOf(event, zone).value;
            && hr[0] == Success(JStr(t.date)) && hr[1] == Success(JStr(t.datetime))
            && hr[2..6] == TeamResults(event, "homeTeam") && hr[6..10] == TeamResults(event, "awayTeam")
  {
    Concat3(TimeResults(LocalTimeOf(event, zone)), TeamResults(event, "homeTeam"), TeamResults(event, "awayTeam"));
  }

  lemma Concat3<T>(a: seq<T>, b: seq<T>, c: seq<T>)
    requires |a| == 2 && |b| == 4 && |c| == 4
    ensures (a + b + c)[0] == a[0] && (a + b + c)[1] == a[1]
    ensures (a + b + c)[2..6] == b && (a + b + c)[6..10] == c
  {
  }

  /** `g` holds every value of `rs`, each under the name at the same position. */
  predicate HoldsAll(g: Record, names: seq<string>, rs: seq<Result<Json, Error>>) {
    && |names| == |rs|
    && forall i :: 0 <= i < |names| ==> rs[i].Success? && Get(g, names[i]) == Some(rs[i].value)
  }

  lemma HoldsSlice(g: Record, names: seq<string>, rs: seq<Result<Json, Error>>, lo: nat, hi: nat)
    requires HoldsAll(g, names, rs) && lo <= hi <= |names|
    ensures HoldsAll(g, names[lo..hi], rs[lo..hi])
  {
  }

  lemma TeamFieldsOf(g: Record, event: Json, team: string, names: seq<string>)
    requires TeamOk(event, team) && |names| == 4 && HoldsAll(g, names, TeamResults(event, team))
    ensures TeamFields(g, event, team, names)
  {
    var tr := TeamResults(event, team);
    assert Get(g, names[0]) == Some(tr[0].value);
    assert Get(g, names[1]) == Some(tr[1].value);
    assert Get(g, names[2]) == Some(tr[2].value);
    assert Get(g, names[3]) == Some(tr[3].value);
  }

  lemma DateNames()
    ensures HeaderNames[0] == "date" && HeaderNames[1] == "datetime"
  {
  }

  lemma TeamNames()
    ensures HeaderNames[2..6] == ["home_team", "home_team_loc", "home_team_name", "home_team_abrv"]
    ensures HeaderNames[6..10] == ["away_team", "away_team_loc", "away_team_name", "away_team_abrv"]
  {
  }

  lemma DateFields(g: Record, t: LocalTime, hr: seq<Result<Json, Error>>)
    requires HoldsAll(g, HeaderNames, hr)
    requires hr[0] == Success(JStr(t.date)) && hr[1] == Success(JStr(t.datetime))
    ensures Get(g, "date") == Some(JStr(t.date)) && Get(g, "datetime") == Some(JStr(t.datetime))
  {
    DateNames();
    assert Get(g, HeaderNames[0]) == Some(hr[0].value) && Get(g, HeaderNames[1]) == Some(hr[1].value);
  }

  lemma HomeFields(g: Record, event: Json, hr: seq<Result<Json, Error>>)
    requires TeamOk(event, "homeTeam") && HoldsAll(g, HeaderNames, hr)
    requires hr[2..6] == TeamResults(event, "homeTeam")
    ensures TeamFields(g, event, "homeTeam", ["home_team", "home_team_loc", "home_team_name", "home_team_abrv"])
  {
    TeamNames();
    HoldsSlice(g, HeaderNames, hr, 2, 6);
    TeamFieldsOf(g, event, "homeTeam", HeaderNames[2..6]);
  }

  lemma AwayFields(g: Record, event: Json, hr: seq<Result<Json, Error>>)
    requires TeamOk(event, "awayTeam") && HoldsAll(g, HeaderNames, hr)
    requires hr[6..10] == TeamResults(event, "awayTeam")
    ensures TeamFields(g, event, "awayTeam", ["away_team", "away_team_loc", "away_team_name", "away_team_abrv"])
  {
    TeamNames();
    HoldsSlice(g, HeaderNames, hr, 6, 10);
    TeamFieldsOf(g, event, "awayTeam", HeaderNames[6..10]);
  }

  /** With a well-formed identity part the record holds all nineteen fields, the date
      and time in the caller's zone, and each team's full name, location, nickname
      and abbreviation, whatever the odds part holds. */
  lemma IdentityFields(event: Json, zone: Zone, line: string, p: Parsers)
    requires HeaderOk(event, zone)
    ensures var g := GameData(event, zone, line, p);
            var t := LocalTimeOf(event, zone).value;
            && Keys(g) == FieldOrder
            && Get(g, "date") == Some(JStr(t.date))
            && Get(g, "datetime") == Some(JStr(t.datetime))
            && TeamFields(g, event, "homeTeam", ["home_team", "home_team_loc", "home_team_name", "home_team_abrv"])
            && TeamFields(g, event, "awayTeam", ["away_team", "away_team_loc", "away_team_name", "away_team_abrv"])
  {
    HeaderOkIff(event, zone);
    HeaderKeys(event, zone, line, p);
    HeaderValues(event, zone, line, p);
    HeaderResultValues(event, zone);
    var g := GameData(event, zone, line, p);
    var hr := HeaderResults(event, zone);
    assert HoldsAll(g, HeaderNames, hr);
    DateFields(g, LocalTimeOf(event, zone).value, hr);
    HomeFields(g, event, hr);
    AwayFields(g, event, hr);
  }

  /** With a well-formed identity part and no sportsbooks — no `sportsBookOdds`
      key, or an empty dict there — the record completes with all nine maps empty. */
  lemma NoSportsbookOdds(event: Json, zone: Zone, line: string, p: Parsers)
    requires HeaderOk(event, zone) && event.JObj?
    requires "sportsBookOdds" !in Keys(event.fields) || Get(event.fields, "sportsBookOdds") == Some(JObj([]))
    ensures Completes(event, zone, line, p)
    ensures var g := GameData(event, zone, line, p);
            && Keys(g) == FieldOrder
            && forall i :: 0 <= i < |BookNames| ==> Get(g, BookNames[i]) == Some(JObj([]))
  {
    CompletesIff(event, zone, line, p);
    var g := GameData(event, zone, line, p);
    forall i | 0 <= i < |BookNames|
      ensures Get(g, BookNames[i]) == Some(JObj([]))
    {
      CompletedBookMaps(event, zone, line, p, i);
      var m := BookMap(g, BookNames[i]);
      if "sportsBookOdds" in Keys(event.fields) {
        assert Keys(m) == [];
      }
    }
    CompletedBookMaps(event, zone, line, p, 0);
  }

  /** A leaf reached from the event runs through `sportsBookOdds`, a dict, and the sportsbook's entry. */
  lemma LeafPath(event: Json, b: string, f: BookField, line: string)
    requires Walk(event, ["sportsBookOdds", b, f.market, f.side, FieldKey(line, f.suffix)]).Success?
    ensures event.JObj? && "sportsBookOdds" in Keys(event.fields)
    ensures var odds := Get(event.fields, "sportsBookOdds").value;
            && odds.JObj? && b in Keys(odds.fields)
            && Walk(Get(odds.fields, b).value, [f.market, f.side, FieldKey(line, f.suffix)])
                 == Walk(event, ["sportsBookOdds", b, f.market, f.side, FieldKey(line, f.suffix)])
  {
    var leaf := [f.market, f.side, FieldKey(line, f.suffix)];
    assert ["sportsBookOdds", b] + leaf == ["sportsBookOdds", b, f.market, f.side, FieldKey(line, f.suffix)];
    WalkAppend(event, ["sportsBookOdds", b], leaf);
    WalkAppend(event, ["sportsBookOdds"], [b]);
  }

  /** The fallbacks: 100 for every odds field, 1 for a spread, None for the total. */
  lemma BookDefaults(i: nat)
    requires i < |BookFields|
    ensures BookFields[i].default == (if BookFields[i].conv == ToInt then JInt(100)
                                      else if BookFields[i].name == "total" then JNull else JInt(1))
  {
  }

  /** In a completed record, a sportsbook whose leaf is present but does not convert
      (a `ValueError` or `TypeError`) holds the field's fallback. */
  lemma BookDefault(event: Json, zone: Zone, line: string, p: Parsers, i: nat, b: string)
    requires Completes(event, zone, line, p) && i < |BookNames|
    requires var f := BookFields[i];
             var leaf := Walk(event, ["sportsBookOdds", b, f.market, f.side, FieldKey(line, f.suffix)]);
             leaf.Success? && Convert(leaf.value, f.conv, p).Failure? && Caught(Convert(leaf.value, f.conv, p).error)
    ensures Get(BookMap(GameData(event, zone, line, p), BookNames[i]), b) == Some(BookFields[i].default)
  {
    LeafPath(event, b, BookFields[i], line);
    CompletedBookMaps(event, zone, line, p, i);
  }

  /** A team's values depend only on the event's entry for that team. */
  lemma SameTeamResults(e1: Json, e2: Json, team: string)
    requires Index(e1, team) == Index(e2, team)
    ensures TeamResults(e1, team) == TeamResults(e2, team)
  {
    assert Walk(e1, [team, "location"]) == Walk(e2, [team, "location"]);
    assert Walk(e1, [team, "nickName"]) == Walk(e2, [team, "nickName"]);
    assert Walk(e1, [team, "abbr"]) == Walk(e2, [team, "abbr"]);
  }

  /** Events that agree on `scheduledTime`, `homeTeam` and `awayTeam` compute the same identity values. */
  lemma SameHeaderResults(e1: Json, e2: Json, zone: Zone)
    requires Index(e1, "scheduledTime") == Index(e2, "scheduledTime")
    requires Index(e1, "homeTeam") == Index(e2, "homeTeam")
    requires Index(e1, "awayTeam") == Index(e2, "awayTeam")
    ensures HeaderResults(e1, zone) == HeaderResults(e2, zone)
  {
    SameTeamResults(e1, e2, "homeTeam");
    SameTeamResults(e1, e2, "awayTeam");
    assert LocalTimeOf(e1, zone) == LocalTimeOf(e2, zone);
  }

  /** What a record holds under identity field `i`, given the identity values. */
  function HeaderGet(hr: seq<Result<Json, Error>>, i: nat): Option<Json>
    requires i < |hr|
  {
    if i < FirstFailure(hr) then Some(hr[i].value) else None
  }

  lemma HeaderFieldsAll(event: Json, zone: Zone, line: string, p: Parsers)
    ensures forall i :: 0 <= i < |HeaderNames| ==>
              Get(GameData(event, zone, line, p), HeaderNames[i]) == HeaderGet(HeaderResults(event, zone), i)
  {
    forall i | 0 <= i < |HeaderNames|
      ensures Get(GameData(event, zone, line, p), HeaderNames[i]) == HeaderGet(HeaderResults(event, zone), i)
    {
      HeaderField(event, zone, line, p, i);
    }
  }

  /** The identity fields depend only on `scheduledTime`, `homeTeam` and `awayTeam`:
      not on the odds, the line variant or the parsers. */
  lemma IdentityFieldsIgnoreOddsAndLine(e1: Json, e2: Json, zone: Zone, l1: string, l2: string, p1: Parsers, p2: Parsers)
    requires Index(e1, "scheduledTime") == Index(e2, "scheduledTime")
    requires Index(e1, "homeTeam") == Index(e2, "homeTeam")
    requires Index(e1, "awayTeam") == Index(e2, "awayTeam")
    ensures forall i :: 0 <= i < |HeaderNames| ==>
              Get(GameData(e1, zone, l1, p1), HeaderNames[i]) == Get(GameData(e2, zone, l2, p2), HeaderNames[i])
  {
    SameHeaderResults(e1, e2, zone);
    HeaderFieldsAll(e1, zone, l1, p1);
    HeaderFieldsAll(e2, zone, l2, p2);
  }
}

=== FILE: game_data_lemmas.dfy ===
/** What `get_game_data` returns, for every event: which fields the record holds,
    what they hold, and how the per-sportsbook maps follow `sportsBookOdds`.
    These lemmas are stated over the statement sequences of `Normalize` (the header
    assignments, one sportsbook's pass, the loop) from any starting record;
    `GameDataFacts` restates them for a whole call in terms of the event. */
module GameDataLemmas {
  import opened Wrappers
  import opened Json
  import opened Coerce
  import opened Builder
  import opened Normalize

  /** The map stored under `name`, or the empty map when there is none. */
  function BookMap(g: Record, name: string): Dict<Json>
  {
    match Get<Json>(g, name)
    case Some(JObj(d)) => d
    case _ => []
  }

  /** A record after the nineteen assignments: every field present in order, every
      per-sportsbook field a dict. */
  ghost predicate Shaped(g: Record) {
    && Keys(g) == FieldOrder
    && forall i :: 0 <= i < |BookNames| ==> Get(g, BookNames[i]).Some? && Get(g, BookNames[i]).value.JObj?
  }

  /** Steps that only ever write `game[name][book]` for a per-sportsbook field. */
  ghost predicate OnlyEntries(s: seq<Step>) {
    forall i :: 0 <= i < |s| && s[i].Do? ==> s[i].action.SetEntry? && s[i].action.name in BookNames
  }

  lemma HeaderNamesDistinct()
    ensures |HeaderNames| == 10 && Distinct(HeaderNames)
  {
  }

  /** No identity field is also a per-sportsbook map. */
  lemma NamesDisjoint()
    ensures forall n :: n in HeaderNames ==> n !in BookNames
  {
  }

  lemma DistinctAppend(a: seq<string>, b: seq<string>)
    requires Distinct(a) && Distinct(b) && forall n :: n in a ==> n !in b
    ensures Distinct(a + b)
  {
    forall i, j | 0 <= i < j < |a + b|
      ensures (a + b)[i] != (a + b)[j]
    {
      if j < |a| {
        assert (a + b)[i] == a[i] && (a + b)[j] == a[j];
      } else if i >= |a| {
        assert (a + b)[i] == b[i - |a|] && (a + b)[j] == b[j - |a|];
      } else {
        assert (a + b)[i] == a[i] && (a + b)[j] == b[j - |a|];
        assert a[i] in a;
      }
    }
  }

  /** The nineteen field names are distinct, identity fields first. */
  lemma FieldTables()
    ensures |HeaderNames| == 10 && |BookNames| == 9 && |FieldOrder| == 19
    ensures forall i :: 0 <= i < 10 ==> FieldOrder[i] == HeaderNames[i]
    ensures forall i :: 0 <= i < 9 ==> FieldOrder[10 + i] == BookNames[i]
    ensures Distinct(FieldOrder) && Distinct(HeaderNames)
  {
    HeaderNamesDistinct();
    BookTables();
    NamesDisjoint();
    DistinctAppend(HeaderNames, BookNames);
  }

  lemma {:induction false} FirstFailureAppend<T>(a: seq<Result<T, Error>>, b: seq<Result<T, Error>>)
    ensures FirstFailure(a + b) == if FirstFailure(a) < |a| then FirstFailure(a) else |a| + FirstFailure(b)
  {
    if |a| == 0 {
      assert a + b == b;
    } else {
      assert (a + b)[0] == a[0];
      assert (a + b)[1..] == a[1..] + b;
      FirstFailureAppend(a[1..], b);
    }
  }

  lemma {:induction false} OnlyEntriesAppend(a: seq<Step>, b: seq<Step>)
    requires OnlyEntries(a) && OnlyEntries(b)
    ensures OnlyEntries(a + b)
  {
    forall i | 0 <= i < |a + b| && (a + b)[i].Do?
      ensures (a + b)[i].action.SetEntry? && (a + b)[i].action.name in BookNames
    {
      if i >= |a| {
        assert (a + b)[i] == b[i - |a|];
      }
    }
  }

  /** Per-sportsbook writes keep the record's shape and never touch an identity field. */
  lemma {:induction false} ExecEntries(g: Record, s: seq<Step>)
    requires Shaped(g) && OnlyEntries(s)
    ensures Shaped(Exec(g, s).game)
    ensures forall n :: n !in BookNames ==> Get(Exec(g, s).game, n) == Get(g, n)
    decreases |s|
  {
    if |s| > 0 && s[0].Do? {
      var a := s[0].action;
      var r := Apply(g, a);
      assert a.name in BookNames;
      var j :| 0 <= j < |BookNames| && BookNames[j] == a.name;
      assert r.Success?;
      var g' := r.value;
      assert Shaped(g') by {
        forall i | 0 <= i < |BookNames|
          ensures Get(g', BookNames[i]).Some? && Get(g', BookNames[i]).value.JObj?
        {
          if BookNames[i] != a.name {
            assert Get(g', BookNames[i]) == Get(g, BookNames[i]);
          }
        }
      }
      assert OnlyEntries(s[1..]) by {
        forall i | 0 <= i < |s[1..]| && s[1..][i].Do?
          ensures s[1..][i].action.SetEntry? && s[1..][i].action.name in BookNames
        {
          assert s[1..][i] == s[i + 1];
        }
      }
      ExecEntries(g', s[1..]);
    }
  }

  /** Writing `game[n][book]` adds the entry to map `n` and leaves every other map alone. */
  lemma ApplyEntryMap(g: Record, n: string, book: string, v: Json, n': string)
    requires Get(g, n).Some? && Get(g, n).value.JObj?
    ensures BookMap(Apply(g, SetEntry(n, book, v)).value, n') ==
              if n' == n then Put(BookMap(g, n), book, v) else BookMap(g, n')
  {
  }

  lemma {:induction false} EntryStepsOnlyEntries(book: string, entry: Json, fs: seq<BookField>, line: string, p: Parsers)
    requires forall i :: 0 <= i < |fs| ==> fs[i].name in BookNames
    ensures OnlyEntries(EntrySteps(book, entry, fs, line, p))
  {
    if |fs| > 0 {
      var s := EntrySteps(book, entry, fs, line, p);
      EntryStepsOnlyEntries(book, entry, fs[1..], line, p);
      assert s == [s[0]] + EntrySteps(book, entry, fs[1..], line, p);
      OnlyEntriesAppend([s[0]], EntrySteps(book, entry, fs[1..], line, p));
    }
  }

  lemma BookEntryStepsOnlyEntries(book: string, entry: Json, line: string, p: Parsers)
    ensures OnlyEntries(EntrySteps(book, entry, BookFields, line, p))
  {
    BookTables();
    EntryStepsOnlyEntries(book, entry, BookFields, line, p);
  }

  lemma {:induction false} LoopStepsOnlyEntries(odds: Json, books: seq<string>, line: string, p: Parsers)
    ensures OnlyEntries(LoopSteps(odds, books, line, p))
  {
    if |books| > 0 {
      LoopStepsOnlyEntries(odds, books[1..], line, p);
      var body := match Index(odds, books[0])
        case Success(entry) => EntrySteps(books[0], entry, BookFields, line, p)
        case Failure(e) => [Raise(e)];
      if Index(odds, books[0]).Success? {
        BookEntryStepsOnlyEntries(books[0], Index(odds, books[0]).value, line, p);
      }
      OnlyEntriesAppend(body, LoopSteps(odds, books[1..], line, p));
    }
  }

  lemma BookStepsOnlyEntries(event: Json, line: string, p: Parsers)
    ensures OnlyEntries(BookSteps(event, line, p))
  {
    var c := Contains(event, "sportsBookOdds");
    if c.Success? && c.value && Index(event, "sportsBookOdds").Success? {
      var odds := Index(event, "sportsBookOdds").value;
      if KeysOf(odds).Success? {
        LoopStepsOnlyEntries(odds, KeysOf(odds).value, line, p);
      }
    }
  }

  lemma AllSucceed<T>(rs: seq<Result<T, Error>>)
    requires forall i :: 0 <= i < |rs| ==> rs[i].Success?
    ensures FirstFailure(rs) == |rs|
  {
  }

  /** The identity values followed by the nine empty maps fail first where the
      identity values do, or not at all. */
  lemma HeaderFirstFailure(hr: seq<Result<Json, Error>>)
    requires |hr| == |HeaderNames|
    ensures FirstFailure(hr + EmptyMaps()) == if FirstFailure(hr) < |hr| then FirstFailure(hr) else |FieldOrder|
  {
    FirstFailureAppend(hr, EmptyMaps());
    AllSucceed(EmptyMaps());
  }

  lemma AssignedHeaderKeys(hr: seq<Result<Json, Error>>)
    requires |hr| == |HeaderNames|
    ensures FirstFailure(hr) < |HeaderNames| ==>
              Keys(Assigned([], FieldOrder, hr + EmptyMaps())) == HeaderNames[..FirstFailure(hr)]
    ensures FirstFailure(hr) == |HeaderNames| ==> Keys(Assigned([], FieldOrder, hr + EmptyMaps())) == FieldOrder
  {
    FieldTables();
    HeaderFirstFailure(hr);
    var rs := hr + EmptyMaps();
    AssignedKeys([], FieldOrder, rs);
    var k := FirstFailure(hr);
    assert [] + FieldOrder[..FirstFailure(rs)] == FieldOrder[..FirstFailure(rs)];
    if k < |HeaderNames| {
      PrefixOfAppend(HeaderNames, BookNames, k);
    } else {
      assert FieldOrder[..19] == FieldOrder;
    }
  }

  lemma PrefixOfAppend<T>(a: seq<T>, b: seq<T>, k: nat)
    requires k <= |a|
    ensures (a + b)[..k] == a[..k]
  {
  }

  lemma AssignedHeaderValues(hr: seq<Result<Json, Error>>, i: nat)
    requires |hr| == |HeaderNames| && i < FirstFailure(hr)
    ensures Get(Assigned([], FieldOrder, hr + EmptyMaps()), HeaderNames[i]) == Some(hr[i].value)
  {
    FieldTables();
    HeaderFirstFailure(hr);
    AssignedValue([], FieldOrder, hr + EmptyMaps(), i);
    assert (hr + EmptyMaps())[i] == hr[i];
  }

  lemma AssignedHeaderMaps(hr: seq<Result<Json, Error>>, i: nat)
    requires |hr| == |HeaderNames| && FirstFailure(hr) == |HeaderNames| && i < |BookNames|
    ensures Get(Assigned([], FieldOrder, hr + EmptyMaps()), BookNames[i]) == Some(JObj([]))
  {
    FieldTables();
    HeaderFirstFailure(hr);
    var rs := hr + EmptyMaps();
    assert FirstFailure(rs) == 19;
    AssignedValue([], FieldOrder, rs, 10 + i);
    assert rs[10 + i] == EmptyMaps()[i];
    assert EmptyMaps()[i] == Success(JObj([]));
    assert FieldOrder[10 + i] == BookNames[i];
  }

  /** Assigning `FieldOrder` from identity values followed by the empty maps. */
  lemma AssignedHeader(hr: seq<Result<Json, Error>>)
    requires |hr| == |HeaderNames|
    ensures var k := FirstFailure(hr);
            var a := Assigned([], FieldOrder, hr + EmptyMaps());
            && (k < |HeaderNames| ==> Keys(a) == HeaderNames[..k])
            && (k == |HeaderNames| ==> Shaped(a)
                                       && forall i :: 0 <= i < |BookNames| ==> Get(a, BookNames[i]) == Some(JObj([])))
            && (forall i :: 0 <= i < k ==> Get(a, HeaderNames[i]) == Some(hr[i].value))
  {
    AssignedHeaderKeys(hr);
    forall i | 0 <= i < FirstFailure(hr)
      ensures Get(Assigned([], FieldOrder, hr + EmptyMaps()), HeaderNames[i]) == Some(hr[i].value)
    {
      AssignedHeaderValues(hr, i);
    }
    if FirstFailure(hr) == |HeaderNames| {
      forall i | 0 <= i < |BookNames|
        ensures Get(Assigned([], FieldOrder, hr + EmptyMaps()), BookNames[i]) == Some(JObj([]))
      {
        AssignedHeaderMaps(hr, i);
      }
    }
  }

  /** The first nineteen statements: the identity fields before the first failed
      value, then, when none failed, the nine empty maps. */
  lemma HeaderRun(event: Json, zone: Zone)
    ensures var k := FirstFailure(HeaderResults(event, zone));
            var o := Exec([], HeaderSteps(event, zone));
            && (k < |HeaderNames| ==> o.Stopped? && Keys(o.game) == HeaderNames[..k])
            && (k == |HeaderNames| ==> o.Done? && Shaped(o.game)
                                       && forall i :: 0 <= i < |BookNames| ==> Get(o.game, BookNames[i]) == Some(JObj([])))
            && (forall i :: 0 <= i < k ==> Get(o.game, HeaderNames[i]) == Some(HeaderResults(event, zone)[i].value))
  {
    var hr := HeaderResults(event, zone);
    HeaderFirstFailure(hr);
    ExecFieldSteps([], FieldOrder, hr + EmptyMaps());
    AssignedHeader(hr);
  }

  /** The identity fields of any record: exactly those before the first failed value,
      in order, each holding its value; when none failed, all nineteen fields are present. */
  lemma GameDataFields(event: Json, zone: Zone, line: string, p: Parsers)
    ensures var k := FirstFailure(HeaderResults(event, zone));
            var g := GameData(event, zone, line, p);
            && (k < |HeaderNames| ==> Keys(g) == HeaderNames[..k])
            && (k == |HeaderNames| ==> Shaped(g))
            && (forall i :: 0 <= i < k ==> Get(g, HeaderNames[i]) == Some(HeaderResults(event, zone)[i].value))
            && (forall i :: k <= i < |HeaderNames| ==> Get(g, HeaderNames[i]) == None)
  {
    HeaderNamesDistinct();
    NamesDisjoint();
    var k := FirstFailure(HeaderResults(event, zone));
    var o := Exec([], HeaderSteps(event, zone));
    HeaderRun(event, zone);
    ExecAppend([], HeaderSteps(event, zone), BookSteps(event, line, p));
    var g := GameData(event, zone, line, p);
    if k == |HeaderNames| {
      BookStepsOnlyEntries(event, line, p);
      ExecEntries(o.game, BookSteps(event, line, p));
      forall i | 0 <= i < k
        ensures Get(g, HeaderNames[i]) == Some(HeaderResults(event, zone)[i].value)
      {
        assert HeaderNames[i] in HeaderNames;
      }
    } else {
      assert g == o.game;
      forall i | k <= i < |HeaderNames|
        ensures Get(g, HeaderNames[i]) == None
      {
        assert HeaderNames[i] !in HeaderNames[..k];
      }
    }
  }

  /** One identity field of any record: its value when it was assigned before the
      first failure, absent otherwise. */
  lemma HeaderField(event: Json, zone: Zone, line: string, p: Parsers, i: nat)
    requires i < |HeaderNames|
    ensures var hr := HeaderResults(event, zone);
            Get(GameData(event, zone, line, p), HeaderNames[i]) ==
              if i < FirstFailure(hr) then Some(hr[i].value) else None
  {
    GameDataFields(event, zone, line, p);
  }

  /** The first statement of a pass of the loop body, when the pass completes. */
  lemma EntryHead(g: Record, book: string, entry: Json, fs: seq<BookField>, line: string, p: Parsers)
    requires |fs| > 0 && Exec(g, EntrySteps(book, entry, fs, line, p)).Done?
    ensures EntryValue(entry, fs[0], line, p).Success?
    ensures var a := SetEntry(fs[0].name, book, EntryValue(entry, fs[0], line, p).value);
            && Apply(g, a).Success?
            && Exec(g, EntrySteps(book, entry, fs, line, p)) == Exec(Apply(g, a).value, EntrySteps(book, entry, fs[1..], line, p))
  {
    var s := EntrySteps(book, entry, fs, line, p);
    assert s[1..] == EntrySteps(book, entry, fs[1..], line, p);
    assert s[0].Do?;
  }

  /** A map no field of `fs` names is left alone by a completed pass of the loop body. */
  lemma {:induction false} EntriesOther(g: Record, book: string, entry: Json, fs: seq<BookField>, line: string, p: Parsers, n: string)
    requires Exec(g, EntrySteps(book, entry, fs, line, p)).Done?
    requires forall k :: 0 <= k < |fs| ==> fs[k].name != n
    ensures BookMap(Exec(g, EntrySteps(book, entry, fs, line, p)).game, n) == BookMap(g, n)
    decreases |fs|
  {
    if |fs| > 0 {
      EntryHead(g, book, entry, fs, line, p);
      var a := SetEntry(fs[0].name, book, EntryValue(entry, fs[0], line, p).value);
      var g1 := Apply(g, a).value;
      ApplyEntryMap(g, a.name, a.book, a.value, n);
      forall k | 0 <= k < |fs[1..]|
        ensures fs[1..][k].name != n
      {
        assert fs[1..][k] == fs[k + 1];
      }
      EntriesOther(g1, book, entry, fs[1..], line, p, n);
    }
  }

  /** Names after the first field differ from it when all names differ. */
  lemma DistinctNamesTail(fs: seq<BookField>)
    requires |fs| > 0
    requires forall x, y :: 0 <= x < y < |fs| ==> fs[x].name != fs[y].name
    ensures forall x :: 0 <= x < |fs[1..]| ==> fs[1..][x].name != fs[0].name
    ensures forall x, y :: 0 <= x < y < |fs[1..]| ==> fs[1..][x].name != fs[1..][y].name
  {
    forall x | 0 <= x < |fs[1..]|
      ensures fs[1..][x].name != fs[0].name
    {
      assert fs[1..][x] == fs[x + 1];
    }
    forall x, y | 0 <= x < y < |fs[1..]|
      ensures fs[1..][x].name != fs[1..][y].name
    {
      assert fs[1..][x] == fs[x + 1] && fs[1..][y] == fs[y + 1];
    }
  }

  /** One completed pass of the loop body writes this sportsbook into the map of
      every field of `fs`, each with its converted value. */
  lemma {:induction false} EntriesWritten(g: Record, book: string, entry: Json, fs: seq<BookField>, line: string, p: Parsers, k: nat)
    requires forall x, y :: 0 <= x < y < |fs| ==> fs[x].name != fs[y].name
    requires Exec(g, EntrySteps(book, entry, fs, line, p)).Done?
    requires k < |fs|
    ensures EntryValue(entry, fs[k], line, p).Success?
    ensures BookMap(Exec(g, EntrySteps(book, entry, fs, line, p)).game, fs[k].name)
              == Put(BookMap(g, fs[k].name), book, EntryValue(entry, fs[k], line, p).value)
    decreases |fs|
  {
    if k == 0 {
      FirstEntryWritten(g, book, entry, fs, line, p);
    } else {
      EntryHead(g, book, entry, fs, line, p);
      var v := EntryValue(entry, fs[0], line, p).value;
      var g1 := Apply(g, SetEntry(fs[0].name, book, v)).value;
      ApplyEntryMap(g, fs[0].name, book, v, fs[k].name);
      DistinctNamesTail(fs);
      assert fs[1..][k - 1] == fs[k];
      EntriesWritten(g1, book, entry, fs[1..], line, p, k - 1);
    }
  }

  /** The first field's map gets this sportsbook's value, which no later field overwrites. */
  lemma FirstEntryWritten(g: Record, book: string, entry: Json, fs: seq<BookField>, line: string, p: Parsers)
    requires forall x, y :: 0 <= x < y < |fs| ==> fs[x].name != fs[y].name
    requires |fs| > 0 && Exec(g, EntrySteps(book, entry, fs, line, p)).Done?
    ensures EntryValue(entry, fs[0], line, p).Success?
    ensures BookMap(Exec(g, EntrySteps(book, entry, fs, line, p)).game, fs[0].name)
              == Put(BookMap(g, fs[0].name), book, EntryValue(entry, fs[0], line, p).value)
  {
    EntryHead(g, book, entry, fs, line, p);
    var v := EntryValue(entry, fs[0], line, p).value;
    var g1 := Apply(g, SetEntry(fs[0].name, book, v)).value;
    ApplyEntryMap(g, fs[0].name, book, v, fs[0].name);
    DistinctNamesTail(fs);
    EntriesOther(g1, book, entry, fs[1..], line, p, fs[0].name);
  }

  /** The per-sportsbook tables agree, and no map name repeats. */
  lemma BookTables()
    ensures |BookFields| == |BookNames| == 9
    ensures forall i :: 0 <= i < 9 ==> BookFields[i].name == BookNames[i]
    ensures Distinct(BookNames)
  {
  }

  lemma BookFieldNamesDistinct()
    ensures forall x, y :: 0 <= x < y < |BookFields| ==> BookFields[x].name != BookFields[y].name
  {
  }

  /** A completed loop completed its first pass, and carries on from where it left off. */
  lemma LoopHead(g: Record, odds: Json, books: seq<string>, line: string, p: Parsers)
    requires |books| > 0 && Exec(g, LoopSteps(odds, books, line, p)).Done?
    ensures Index(odds, books[0]).Success?
    ensures var body := EntrySteps(books[0], Index(odds, books[0]).value, BookFields, line, p);
            && Exec(g, body).Done?
            && Exec(g, LoopSteps(odds, books, line, p)) == Exec(Exec(g, body).game, LoopSteps(odds, books[1..], line, p))
  {
    var body := match Index(odds, books[0])
      case Success(entry) => EntrySteps(books[0], entry, BookFields, line, p)
      case Failure(e) => [Raise(e)];
    ExecAppend(g, body, LoopSteps(odds, books[1..], line, p));
  }

  /** The first pass of the sportsbook loop, for one map. */
  lemma LoopFirst(g: Record, odds: Json, books: seq<string>, line: string, p: Parsers, i: nat)
    requires Shaped(g) && i < |BookNames| && |books| > 0
    requires Exec(g, LoopSteps(odds, books, line, p)).Done?
    ensures Index(odds, books[0]).Success?
    ensures var entry := Index(odds, books[0]).value;
            var body := EntrySteps(books[0], entry, BookFields, line, p);
            && Exec(g, body).Done?
            && Shaped(Exec(g, body).game)
            && EntryValue(entry, BookFields[i], line, p).Success?
            && BookMap(Exec(g, body).game, BookNames[i])
                 == Put(BookMap(g, BookNames[i]), books[0], EntryValue(entry, BookFields[i], line, p).value)
            && Exec(g, LoopSteps(odds, books, line, p)) == Exec(Exec(g, body).game, LoopSteps(odds, books[1..], line, p))
  {
    LoopHead(g, odds, books, line, p);
    var entry := Index(odds, books[0]).value;
    FirstPassMap(g, books[0], entry, line, p, i);
    FirstPassShape(g, books[0], entry, line, p);
  }

  /** A completed pass of the loop body adds the sportsbook to map `i`. */
  lemma FirstPassMap(g: Record, book: string, entry: Json, line: string, p: Parsers, i: nat)
    requires Exec(g, EntrySteps(book, entry, BookFields, line, p)).Done? && i < |BookNames|
    ensures EntryValue(entry, BookFields[i], line, p).Success?
    ensures BookMap(Exec(g, EntrySteps(book, entry, BookFields, line, p)).game, BookNames[i])
              == Put(BookMap(g, BookNames[i]), book, EntryValue(entry, BookFields[i], line, p).value)
  {
    BookTables();
    BookFieldNamesDistinct();
    EntriesWritten(g, book, entry, BookFields, line, p, i);
  }

  /** A pass of the loop body keeps the record shaped. */
  lemma FirstPassShape(g: Record, book: string, entry: Json, line: string, p: Parsers)
    requires Shaped(g)
    ensures Shaped(Exec(g, EntrySteps(book, entry, BookFields, line, p)).game)
  {
    BookEntryStepsOnlyEntries(book, entry, line, p);
    ExecEntries(g, EntrySteps(book, entry, BookFields, line, p));
  }

  /** Distinct fresh keys stay distinct and fresh once the first is appended. */
  lemma FreshTail(ks: seq<string>, books: seq<string>)
    requires |books| > 0 && Distinct(books) && forall b :: b in books ==> b !in ks
    ensures Distinct(books[1..])
    ensures forall b :: b in books[1..] ==> b !in ks + [books[0]]
    ensures (ks + [books[0]]) + books[1..] == ks + books
  {
    assert Distinct(books[1..]) by {
      forall x, y | 0 <= x < y < |books[1..]|
        ensures books[1..][x] != books[1..][y]
      {
        assert books[1..][x] == books[x + 1] && books[1..][y] == books[y + 1];
      }
    }
    forall b | b in books[1..]
      ensures b !in ks + [books[0]]
    {
      var x :| 0 <= x < |books[1..]| && books[1..][x] == b;
      assert books[x + 1] == b;
    }
    assert books == [books[0]] + books[1..];
    AppendAssoc(ks, [books[0]], books[1..]);
  }

  /** The sportsbook loop, for one map: every visited sportsbook holds its converted
      value, every other key keeps its value, and new distinct keys are appended in
      visiting order. */
  lemma {:induction false} Loop(g: Record, odds: Json, books: seq<string>, line: string, p: Parsers, i: nat)
    requires Shaped(g) && i < |BookNames|
    requires Exec(g, LoopSteps(odds, books, line, p)).Done?
    ensures var g' := Exec(g, LoopSteps(odds, books, line, p)).game;
            var m := BookMap(g, BookNames[i]);
            var m' := BookMap(g', BookNames[i]);
            && Shaped(g')
            && (forall b :: b in books ==>
                  && Index(odds, b).Success?
                  && EntryValue(Index(odds, b).value, BookFields[i], line, p).Success?
                  && Get(m', b) == Some(EntryValue(Index(odds, b).value, BookFields[i], line, p).value))
            && (forall b :: b !in books ==> Get(m', b) == Get(m, b))
            && (Distinct(books) && (forall b :: b in books ==> b !in Keys(m)) ==> Keys(m') == Keys(m) + books)
    decreases |books|
  {
    var m := BookMap(g, BookNames[i]);
    if |books| == 0 {
      assert Keys(m) + books == Keys(m);
    } else {
      var b0 := books[0];
      LoopFirst(g, odds, books, line, p, i);
      var entry := Index(odds, b0).value;
      var g1 := Exec(g, EntrySteps(b0, entry, BookFields, line, p)).game;
      var v0 := EntryValue(entry, BookFields[i], line, p).value;
      var m1 := BookMap(g1, BookNames[i]);
      Loop(g1, odds, books[1..], line, p, i);
      var g' := Exec(g, LoopSteps(odds, books, line, p)).game;
      var m' := BookMap(g', BookNames[i]);
      forall b | b in books
        ensures Index(odds, b).Success?
        ensures EntryValue(Index(odds, b).value, BookFields[i], line, p).Success?
        ensures Get(m', b) == Some(EntryValue(Index(odds, b).value, BookFields[i], line, p).value)
      {
        if b !in books[1..] {
          assert b == b0;
        }
      }
      forall b | b !in books
        ensures Get(m', b) == Get(m, b)
      {
        assert b !in books[1..] && b != b0;
      }
      if Distinct(books) && (forall b :: b in books ==> b !in Keys(m)) {
        FreshTail(Keys(m), books);
        assert Keys(m1) == Keys(m) + [b0];
      }
    }
  }

  /** `game[n]` is a dict, so `game[n][book] = v` can run. */
  predicate IsMap(g: Record, n: string) {
    Get(g, n).Some? && Get(g, n).value.JObj?
  }

  /** Writing an entry keeps every map a map. */
  lemma ApplyKeepsMaps(g: Record, n: string, book: string, v: Json, n': string)
    requires IsMap(g, n) && IsMap(g, n')
    ensures Apply(g, SetEntry(n, book, v)).Success?
    ensures IsMap(Apply(g, SetEntry(n, book, v)).value, n')
  {
  }

  /** In a shaped record every field of `BookFields` names a map. */
  lemma ShapedMaps(g: Record)
    requires Shaped(g)
    ensures forall k :: 0 <= k < |BookFields| ==> IsMap(g, BookFields[k].name)
  {
    BookTables();
  }

  /** Every one of the nine leaves of a sportsbook entry yields a value without an
      uncaught exception. */
  predicate EntryOk(entry: Json, line: string, p: Parsers) {
    forall k :: 0 <= k < |BookFields| ==> EntryValue(entry, BookFields[k], line, p).Success?
  }

  lemma AllOkCons(entry: Json, fs: seq<BookField>, line: string, p: Parsers)
    requires |fs| > 0
    ensures (forall k :: 0 <= k < |fs| ==> EntryValue(entry, fs[k], line, p).Success?) <==>
              && EntryValue(entry, fs[0], line, p).Success?
              && forall k :: 0 <= k < |fs[1..]| ==> EntryValue(entry, fs[1..][k], line, p).Success?
  {
    if forall k :: 0 <= k < |fs[1..]| ==> EntryValue(entry, fs[1..][k], line, p).Success? {
      forall k | 0 <= k < |fs|
        ensures k > 0 ==> EntryValue(entry, fs[k], line, p).Success?
      {
        if k > 0 {
          assert fs[1..][k - 1] == fs[k];
        }
      }
    } else {
      var k :| 0 <= k < |fs[1..]| && EntryValue(entry, fs[1..][k], line, p).Failure?;
      assert fs[1..][k] == fs[k + 1];
    }
  }

  /** Writing the first field's entry keeps every later field's map a map. */
  lemma MapsAfterEntry(g: Record, fs: seq<BookField>, book: string, v: Json)
    requires |fs| > 0 && forall k :: 0 <= k < |fs| ==> IsMap(g, fs[k].name)
    ensures Apply(g, SetEntry(fs[0].name, book, v)).Success?
    ensures forall k :: 0 <= k < |fs[1..]| ==> IsMap(Apply(g, SetEntry(fs[0].name, book, v)).value, fs[1..][k].name)
  {
    ApplyKeepsMaps(g, fs[0].name, book, v, fs[0].name);
    forall k | 0 <= k < |fs[1..]|
      ensures IsMap(Apply(g, SetEntry(fs[0].name, book, v)).value, fs[1..][k].name)
    {
      assert fs[1..][k] == fs[k + 1];
      ApplyKeepsMaps(g, fs[0].name, book, v, fs[k + 1].name);
    }
  }

  /** A pass of the loop body over maps that exist completes exactly when every
      field's value is computed without an exception. */
  lemma {:induction false} EntriesDone(g: Record, book: string, entry: Json, fs: seq<BookField>, line: string, p: Parsers)
    requires forall k :: 0 <= k < |fs| ==> IsMap(g, fs[k].name)
    ensures Exec(g, EntrySteps(book, entry, fs, line, p)).Done? <==>
              forall k :: 0 <= k < |fs| ==> EntryValue(entry, fs[k], line, p).Success?
    decreases |fs|
  {
    if |fs| > 0 {
      var s := EntrySteps(book, entry, fs, line, p);
      assert s[1..] == EntrySteps(book, entry, fs[1..], line, p);
      AllOkCons(entry, fs, line, p);
      var ev := EntryValue(entry, fs[0], line, p);
      if ev.Success? {
        var a := SetEntry(fs[0].name, book, ev.value);
        assert s[0] == Do(a);
        MapsAfterEntry(g, fs, book, ev.value);
        var g1 := Apply(g, a).value;
        ExecFirst(g, s, g1);
        EntriesDone(g1, book, entry, fs[1..], line, p);
      } else {
        assert s[0] == Raise(ev.error);
      }
    }
  }

  /** From a shaped record, the sportsbook loop completes exactly when every visited
      key is present and its entry is well formed. */
  lemma {:induction false} LoopDone(g: Record, odds: Json, books: seq<string>, line: string, p: Parsers)
    requires Shaped(g)
    ensures Exec(g, LoopSteps(odds, books, line, p)).Done? <==>
              forall b :: b in books ==> Index(odds, b).Success? && EntryOk(Index(odds, b).value, line, p)
    decreases |books|
  {
    if |books| > 0 {
      var b0 := books[0];
      var body := match Index(odds, b0)
        case Success(entry) => EntrySteps(b0, entry, BookFields, line, p)
        case Failure(e) => [Raise(e)];
      var rest := LoopSteps(odds, books[1..], line, p);
      ExecAppend(g, body, rest);
      if Index(odds, b0).Success? {
        var entry := Index(odds, b0).value;
        ShapedMaps(g);
        EntriesDone(g, b0, entry, BookFields, line, p);
        if Exec(g, body).Done? {
          BookEntryStepsOnlyEntries(b0, entry, line, p);
          ExecEntries(g, body);
          LoopDone(Exec(g, body).game, odds, books[1..], line, p);
          forall b | b in books
            ensures b == b0 || b in books[1..]
          {
          }
        }
      }
    }
  }
}

=== FILE: json.dfy ===
/** Python values as produced by `json.loads`, and the handful of Python operations
    the scraper applies to them: subscription, `in`, `.keys()` and iteration. */
module Json {
  import opened Wrappers

  /** A Python float. `json.loads` also accepts `NaN`, `Infinity` and `-Infinity`.
      Finite floats are kept as exact reals: IEEE rounding is not modelled. */
  datatype FloatVal = Finite(r: real) | PosInf | NegInf | NaN

  /** A decoded JSON value: None, bool, int, float, str, list or dict. */
  datatype Json =
    | JNull
    | JBool(b: bool)
    | JInt(i: int)
    | JFloat(f: FloatVal)
    | JStr(s: string)
    | JArr(items: seq<Json>)
    | JObj(fields: Dict<Json>)

  /** A Python dict with string keys, in insertion order. */
  type Dict<V> = seq<(string, V)>

  /** The Python exceptions the modelled code can raise. */
  datatype Error =
    | KeyError(key: string)
    | TypeError
    | ValueError
    | OverflowError
    | AttributeError

  /** The keys of a dict, in iteration order. */
  function Keys<V>(d: Dict<V>): (ks: seq<string>)
    ensures |ks| == |d|
  {
    if |d| == 0 then [] else [d[0].0] + Keys(d[1..])
  }

  /** `d[k]` when `k` is present. */
  function Get<V>(d: Dict<V>, k: string): (r: Option<V>)
    ensures r.Some? <==> k in Keys(d)
    ensures r.Some? ==> exists i :: 0 <= i < |d| && d[i] == (k, r.value)
  {
    if |d| == 0 then None
    else if d[0].0 == k then Some(d[0].1)
    else Get(d[1..], k)
  }

  /** `d[k] = v`: an existing key keeps its position, a new key goes last. */
  function Put<V>(d: Dict<V>, k: string, v: V): (r: Dict<V>)
    ensures Get(r, k) == Some(v)
    ensures forall k' :: k' != k ==> Get(r, k') == Get(d, k')
    ensures k in Keys(d) ==> Keys(r) == Keys(d)
    ensures k !in Keys(d) ==> Keys(r) == Keys(d) + [k]
  {
    if |d| == 0 then [(k, v)]
    else if d[0].0 == k then [(k, v)] + d[1..]
    else [d[0]] + Put(d[1..], k, v)
  }

  /** No key occurs twice. */
  predicate Distinct(ks: seq<string>) {
    forall i, j :: 0 <= i < j < |ks| ==> ks[i] != ks[j]
  }

  /** Python `j[key]` with a string key. */
  function Index(j: Json, key: string): (r: Result<Json, Error>)
    ensures r.Success? <==> j.JObj? && key in Keys(j.fields)
    ensures r.Success? ==> Get(j.fields, key) == Some(r.value)
    ensures r.Failure? ==> r.error == (if j.JObj? then KeyError(key) else TypeError)
  {
    match j
    case JObj(d) =>
      (match Get(d, key)
       case Some(v) => Success(v)
       case None => Failure(KeyError(key)))
    case _ => Failure(TypeError)
  }

  /** `k` occurs as a contiguous part of `s`. */
  predicate IsSubstring(k: string, s: string) {
    k <= s || (|s| > 0 && IsSubstring(k, s[1..]))
  }

  /** Python `key in j`: key membership for a dict, element equality for a list,
      substring test for a str; any other value is not a container. */
  function Contains(j: Json, key: string): (r: Result<bool, Error>)
    ensures j.JObj? ==> r == Success(key in Keys(j.fields))
    ensures r.Failure? <==> !(j.JObj? || j.JArr? || j.JStr?)
  {
    match j
    case JObj(d) => Success(key in Keys(d))
    case JArr(xs) => Success(JStr(key) in xs)
    case JStr(s) => Success(IsSubstring(key, s))
    case _ => Failure(TypeError)
  }

  /** Python `j.keys()`: only a dict has that method. */
  function KeysOf(j: Json): (r: Result<seq<string>, Error>)
    ensures r.Success? <==> j.JObj?
    ensures r.Success? ==> r.value == Keys(j.fields)
    ensures r.Failure? ==> r.error == AttributeError
  {
    match j
    case JObj(d) => Success(Keys(d))
    case _ => Failure(AttributeError)
  }

  /** What `for x in j` visits: list elements, dict keys, or the one-character
      strings of a str; None, bools and numbers are not iterable. */
  function Iterate(j: Json): (r: Result<seq<Json>, Error>)
    ensures j.JArr? ==> r == Success(j.items)
    ensures j.JObj? ==> r.Success? && |r.value| == |j.fields|
                        && forall i :: 0 <= i < |j.fields| ==> r.value[i] == JStr(j.fields[i].0)
    ensures j.JStr? ==> r.Success? && |r.value| == |j.s|
                        && forall i :: 0 <= i < |j.s| ==> r.value[i] == JStr([j.s[i]])
    ensures r.Failure? <==> !(j.JArr? || j.JObj? || j.JStr?)
    ensures r.Failure? ==> r.error == TypeError
  {
    match j
    case JArr(xs) => Success(xs)
    case JObj(d) => Success(seq(|d|, i requires 0 <= i < |d| => JStr(d[i].0)))
    case JStr(s) => Success(seq(|s|, i requires 0 <= i < |s| => JStr([s[i]])))
    case _ => Failure(TypeError)
  }

  /** `j[path[0]][path[1]]...`, left to right, stopping at the first failure. */
  function Walk(j: Json, path: seq<string>): (r: Result<Json, Error>)
    ensures |path| == 0 ==> r == Success(j)
    ensures |path| > 0 && r.Success? ==> j.JObj? && path[0] in Keys(j.fields)
    ensures |path| > 0 && !j.JObj? ==> r == Failure(TypeError)
  {
    if |path| == 0 then Success(j)
    else
      var child :- Index(j, path[0]);
      Walk(child, path[1..])
  }

  /** `leaf` lies at `path` in `j`: every value along the way is a dict binding the next key. */
  predicate Reaches(j: Json, path: seq<string>, leaf: Json)
  {
    if |path| == 0 then j == leaf
    else j.JObj? && Get(j.fields, path[0]).Some? && Reaches(Get(j.fields, path[0]).value, path[1..], leaf)
  }

  /** Chained subscription yields `leaf` exactly when `leaf` lies at that path. */
  lemma {:induction false} WalkReaches(j: Json, path: seq<string>, leaf: Json)
    ensures Walk(j, path) == Success(leaf) <==> Reaches(j, path, leaf)
  {
    if |path| > 0 && j.JObj? && Get(j.fields, path[0]).Some? {
      WalkReaches(Get(j.fields, path[0]).value, path[1..], leaf);
    }
  }

  /** A failed walk failed on a missing key of the path, or on a value that is not a dict. */
  lemma {:induction false} WalkFailure(j: Json, path: seq<string>)
    ensures Walk(j, path).Failure? ==>
              Walk(j, path).error == TypeError
              || (Walk(j, path).error.KeyError? && Walk(j, path).error.key in path)
  {
    if |path| > 0 {
      var c := Index(j, path[0]);
      if c.Success? {
        WalkFailure(c.value, path[1..]);
        if Walk(j, path).Failure? && Walk(j, path).error.KeyError? {
          assert Walk(j, path).error.key in path[1..];
        }
      }
    }
  }

  /** Walking `p + q` is walking `p`, then `q` from where `p` ended. */
  lemma {:induction false} WalkAppend(j: Json, p: seq<string>, q: seq<string>)
    ensures Walk(j, p + q) == (match Walk(j, p)
                               case Success(v) => Walk(v, q)
                               case Failure(e) => Failure(e))
  {
    if |p| > 0 {
      assert (p + q)[0] == p[0];
      assert (p + q)[1..] == p[1..] + q;
      var c := Index(j, p[0]);
      if c.Success? {
        WalkAppend(c.value, p[1..], q);
      }
    } else {
      assert p + q == q;
    }
  }
}

=== FILE: normalize.dfy ===
/** `get_game_data`: one flat record per event, built by the assignments of one
    `try` block in source order, returning whatever was built when the first
    exception ended the block. */
module Normalize {
  import opened Wrappers
  import opened Json
  import opened Coerce
  import opened Builder

  /** A scheduled time rendered in the caller's zone as `%Y-%m-%d` and `%Y-%m-%dT%H:%M:%SZ`. */
  datatype LocalTime = LocalTime(date: string, datetime: string)

  /** The caller's time zone (`local_tz`): parses a `%Y-%m-%dT%H:%M:%SZ` UTC time,
      converts it to the zone and renders it, or raises. */
  datatype Zone = Zone(localize: string -> Result<LocalTime, Error>)

  /** The two leaf names a line variant can read. */
  datatype Suffix = ValueKey | OddsKey

  function LowerName(s: Suffix): string {
    match s
    case ValueKey => "value"
    case OddsKey => "outcomeOdds"
  }

  function UpperName(s: Suffix): string {
    match s
    case ValueKey => "Value"
    case OddsKey => "OutcomeOdds"
  }

  /** The line prefix: empty for the current line, `"opening"` for the opening line. */
  function LinePrefix(currentLine: bool): (line: string)
    ensures FieldKey(line, ValueKey) == (if currentLine then "value" else "openingValue")
    ensures FieldKey(line, OddsKey) == (if currentLine then "outcomeOdds" else "openingOutcomeOdds")
  {
    if currentLine then "" else "opening"
  }

  /** The leaf key a line variant reads: the prefix followed by the leaf name,
      capitalised only when the prefix is not empty. */
  function FieldKey(line: string, suffix: Suffix): (k: string)
    ensures |k| > |line| && k[..|line|] == line
    ensures |line| == 0 ==> k == LowerName(suffix)
    ensures |line| > 0 ==> k[|line|..] == UpperName(suffix)
  {
    line + (if |line| == 0 then LowerName(suffix) else UpperName(suffix))
  }

  /** One per-sportsbook map of the record: its name, the path of the leaf it reads
      below the sportsbook's entry, the conversion and the fallback value. */
  datatype BookField = BookField(name: string, market: string, side: string, suffix: Suffix, conv: Conv, default: Json)

  const BookFields: seq<BookField> := [
    BookField("home_spread", "spread", "home", ValueKey, ToFloat, JInt(1)),
    BookField("home_spread_odds", "spread", "home", OddsKey, ToInt, JInt(100)),
    BookField("away_spread", "spread", "away", ValueKey, ToFloat, JInt(1)),
    BookField("away_spread_odds", "spread", "away", OddsKey, ToInt, JInt(100)),
    BookField("under_odds", "total", "under", OddsKey, ToInt, JInt(100)),
    BookField("over_odds", "total", "over", OddsKey, ToInt, JInt(100)),
    BookField("total", "total", "over", ValueKey, ToFloat, JNull),
    BookField("home_ml", "moneyline", "home", OddsKey, ToInt, JInt(100)),
    BookField("away_ml", "moneyline", "away", OddsKey, ToInt, JInt(100))
  ]

  /** The identity fields, in assignment order. */
  const HeaderNames: seq<string> := [
    "date", "datetime",
    "home_team", "home_team_loc", "home_team_name", "home_team_abrv",
    "away_team", "away_team_loc", "away_team_name", "away_team_abrv"
  ]

  /** The per-sportsbook maps, in assignment order. */
  const BookNames: seq<string> := [
    "home_spread", "home_spread_odds", "away_spread", "away_spread_odds",
    "under_odds", "over_odds", "total", "home_ml", "away_ml"
  ]

  /** Every top-level field of a record, in assignment order. */
  const FieldOrder: seq<string> := HeaderNames + BookNames

  /** `event["scheduledTime"]` converted to the zone; `strptime` of a non-str raises `TypeError`. */
  function LocalTimeOf(event: Json, zone: Zone): (r: Result<LocalTime, Error>)
    ensures !event.JObj? ==> r == Failure(TypeError)
    ensures event.JObj? && "scheduledTime" !in Keys(event.fields) ==> r == Failure(KeyError("scheduledTime"))
    ensures Index(event, "scheduledTime").Success? && !Index(event, "scheduledTime").value.JStr? ==> r == Failure(TypeError)
    ensures r.Success? ==> event.JObj? && Get(event.fields, "scheduledTime").Some?
                           && Get(event.fields, "scheduledTime").value.JStr?
                           && r == zone.localize(Get(event.fields, "scheduledTime").value.s)
  {
    var t :- Index(event, "scheduledTime");
    if t.JStr? then zone.localize(t.s) else Failure(TypeError)
  }

  /** `event[team]["location"] + " " + event[team]["nickName"]`: adding to a non-str raises `TypeError`. */
  function TeamName(event: Json, team: string): (r: Result<Json, Error>)
    ensures var loc := Walk(event, [team, "location"]);
            var nick := Walk(event, [team, "nickName"]);
            && (r.Success? <==> loc.Success? && loc.value.JStr? && nick.Success? && nick.value.JStr?)
            && (r.Success? ==> r.value == JStr(loc.value.s + " " + nick.value.s))
  {
    var loc :- Walk(event, [team, "location"]);
    if !loc.JStr? then Failure(TypeError)
    else
      var nick :- Walk(event, [team, "nickName"]);
      if !nick.JStr? then Failure(TypeError)
      else Success(JStr(loc.s + " " + nick.s))
  }

  /** Full name, location, nickname and abbreviation of one team. */
  function TeamResults(event: Json, team: string): (rs: seq<Result<Json, Error>>)
    ensures |rs| == 4
    ensures rs[0].Success? ==> rs[1].Success? && rs[1].value.JStr? && rs[2].Success? && rs[2].value.JStr?
                               && rs[0].value == JStr(rs[1].value.s + " " + rs[2].value.s)
    ensures !event.JObj? ==> forall i :: 0 <= i < 4 ==> rs[i] == Failure(TypeError)
  {
    [ TeamName(event, team),
      Walk(event, [team, "location"]),
      Walk(event, [team, "nickName"]),
      Walk(event, [team, "abbr"]) ]
  }

  /** The date and the date-time, or the exception converting the time raised. */
  function TimeResults(t: Result<LocalTime, Error>): (rs: seq<Result<Json, Error>>)
    ensures |rs| == 2
  {
    [ if t.Success? then Success(JStr(t.value.date)) else Failure(t.error),
      if t.Success? then Success(JStr(t.value.datetime)) else Failure(t.error) ]
  }

  /** The values of the identity fields, in `HeaderNames` order. */
  function HeaderResults(event: Json, zone: Zone): (rs: seq<Result<Json, Error>>)
    ensures |rs| == |HeaderNames|
  {
    TimeResults(LocalTimeOf(event, zone)) + TeamResults(event, "homeTeam") + TeamResults(event, "awayTeam")
  }

  /** The nine `game[name] = {}` initialisations. */
  function EmptyMaps(): (rs: seq<Result<Json, Error>>)
    ensures |rs| == |BookNames|
    ensures forall i :: 0 <= i < |rs| ==> rs[i] == Success(JObj([]))
  {
    seq(|BookNames|, i => Success(JObj([])))
  }

  /** The first nineteen statements of the block: identity fields, then empty maps. */
  function HeaderSteps(event: Json, zone: Zone): seq<Step>
  {
    FieldSteps(FieldOrder, HeaderResults(event, zone) + EmptyMaps())
  }

  /** `safe_cast(line[market][side][key], to_type, default)` for one sportsbook entry. */
  function EntryValue(entry: Json, f: BookField, line: string, p: Parsers): (r: Result<Json, Error>)
    ensures var leaf := Walk(entry, [f.market, f.side, FieldKey(line, f.suffix)]);
            && (leaf.Failure? ==> r == Failure(leaf.error))
            && (leaf.Success? && Convert(leaf.value, f.conv, p).Success? ==> r == Convert(leaf.value, f.conv, p))
            && (leaf.Success? && Convert(leaf.value, f.conv, p).Failure? && Caught(Convert(leaf.value, f.conv, p).error) ==>
                  r == Success(f.default))
            && (r.Failure? <==> leaf.Failure? || Convert(leaf.value, f.conv, p) == Failure(OverflowError))
            && (leaf.Success? && r.Failure? ==> r.error == OverflowError)
  {
    var leaf :- Walk(entry, [f.market, f.side, FieldKey(line, f.suffix)]);
    SafeCast(leaf, f.conv, p, f.default)
  }

  /** `game[name][book] = v` for a computed value, or the exception computing it raised. */
  function EntryStep(book: string, name: string, v: Result<Json, Error>): Step
  {
    match v
    case Success(x) => Do(SetEntry(name, book, x))
    case Failure(e) => Raise(e)
  }

  /** `game[f.name][book] = ...` for each field `f` in turn. */
  function EntrySteps(book: string, entry: Json, fs: seq<BookField>, line: string, p: Parsers): (s: seq<Step>)
    ensures |s| == |fs|
  {
    if |fs| == 0 then []
    else
      [EntryStep(book, fs[0].name, EntryValue(entry, fs[0], line, p))] + EntrySteps(book, entry, fs[1..], line, p)
  }

  /** The `i`-th statement of a pass stores field `i`'s value for the sportsbook,
      or raises what computing that value raised. */
  lemma {:induction false} EntryStepsAt(book: string, entry: Json, fs: seq<BookField>, line: string, p: Parsers, i: nat)
    requires i < |fs|
    ensures var s := EntrySteps(book, entry, fs, line, p);
            var v := EntryValue(entry, fs[i], line, p);
            && (s[i].Do? <==> v.Success?)
            && (s[i].Do? ==> s[i].action == SetEntry(fs[i].name, book, v.value))
            && (s[i].Raise? ==> s[i].error == v.error)
  {
    EntryStepsIndex(book, entry, fs, line, p, i);
  }

  lemma {:induction false} EntryStepsIndex(book: string, entry: Json, fs: seq<BookField>, line: string, p: Parsers, i: nat)
    requires i < |fs|
    ensures EntrySteps(book, entry, fs, line, p)[i] == EntryStep(book, fs[i].name, EntryValue(entry, fs[i], line, p))
  {
    if i > 0 {
      EntryStepsIndex(book, entry, fs[1..], line, p, i - 1);
      assert fs[1..][i - 1] == fs[i];
    }
  }

  /** One pass of the loop body: `line = sportsbook_odds[sportsbook]`, then the nine assignments. */
  function PassSteps(odds: Json, book: string, line: string, p: Parsers): (s: seq<Step>)
    ensures 1 <= |s| <= 9
    ensures Index(odds, book).Success? ==> |s| == 9
    ensures Index(odds, book).Failure? ==> s == [Raise(Index(odds, book).error)]
  {
    match Index(odds, book)
    case Success(entry) => EntrySteps(book, entry, BookFields, line, p)
    case Failure(e) => [Raise(e)]
  }

  /** The body of `for sportsbook in sportsbook_odds.keys()`, once per key in order. */
  function LoopSteps(odds: Json, books: seq<string>, line: string, p: Parsers): (s: seq<Step>)
    ensures |books| <= |s| <= 9 * |books|
    ensures (forall i :: 0 <= i < |books| ==> Index(odds, books[i]).Success?) ==> |s| == 9 * |books|
    ensures |books| > 0 && !odds.JObj? ==> s == [Raise(TypeError)] + LoopSteps(odds, books[1..], line, p)
  {
    if |books| == 0 then []
    else PassSteps(odds, books[0], line, p) + LoopSteps(odds, books[1..], line, p)
  }

  /** The `if "sportsBookOdds" in event` statement and its loop. */
  function BookSteps(event: Json, line: string, p: Parsers): (s: seq<Step>)
    ensures Contains(event, "sportsBookOdds") == Success(false) ==> s == []
    ensures !(event.JObj? || event.JArr? || event.JStr?) ==> s == [Raise(TypeError)]
    ensures (event.JObj? && "sportsBookOdds" in Keys(event.fields) && !Get(event.fields, "sportsBookOdds").value.JObj?)
              ==> s == [Raise(AttributeError)]
    ensures (event.JObj? && "sportsBookOdds" in Keys(event.fields) && Get(event.fields, "sportsBookOdds").value.JObj?)
              ==> var odds := Get(event.fields, "sportsBookOdds").value;
                  s == LoopSteps(odds, Keys(odds.fields), line, p)
  {
    match Contains(event, "sportsBookOdds")
    case Failure(e) => [Raise(e)]
    case Success(false) => []
    case Success(true) =>
      match Index(event, "sportsBookOdds")
      case Failure(e) => [Raise(e)]
      case Success(odds) =>
        match KeysOf(odds)
        case Failure(e) => [Raise(e)]
        case Success(books) => LoopSteps(odds, books, line, p)
  }

  /** Every statement of the `try` block, in order. */
  function Steps(event: Json, zone: Zone, line: string, p: Parsers): seq<Step>
  {
    HeaderSteps(event, zone) + BookSteps(event, line, p)
  }

  /** `get_game_data(event, local_tz, _line)`: always a dict, holding what the
      block assigned before its first exception. */
  function GameData(event: Json, zone: Zone, line: string, p: Parsers): (g: Record)
    ensures LocalTimeOf(event, zone).Failure? ==> g == []
  {
    FirstStep(event, zone, line, p);
    Exec([], Steps(event, zone, line, p)).game
  }

  /** The first statement of the block assigns the date, or raises what converting the time raised. */
  lemma FirstStep(event: Json, zone: Zone, line: string, p: Parsers)
    ensures |Steps(event, zone, line, p)| > 0
    ensures Steps(event, zone, line, p)[0] == ToStep("date", TimeResults(LocalTimeOf(event, zone))[0])
  {
    var rs := HeaderResults(event, zone) + EmptyMaps();
    assert rs[0] == TimeResults(LocalTimeOf(event, zone))[0];
    assert HeaderSteps(event, zone)[0] == ToStep("date", rs[0]);
  }

  /** The block ran to its end without an exception. */
  predicate Completes(event: Json, zone: Zone, line: string, p: Parsers) {
    Exec([], Steps(event, zone, line, p)).Done?
  }
}

=== FILE: payload.dfy ===
/** Locating the odds payload in a fetched page: the first embedded
    `__NEXT_DATA__` script, decoded, then a fixed six-key descent. */
module Payload {
  import opened Wrappers
  import opened Json

  /** The script element that carries the page's state. */
  const JsonRegex: string := "<script id=\"__NEXT_DATA__\" type=\"application/json\">(.*)</script>"

  /** Where the per-event odds sit inside the decoded page state. */
  const CompetitionOddsPath: seq<string> :=
    ["props", "initialState", "oddsPageState", "pageState", "data", "competitionOdds"]

  /** Library behaviour the extractor relies on: `re.findall(pattern, text)`
      (the captured groups of all matches, in page order) and `json.loads`
      (which may report any decoding error). */
  datatype Extractor = Extractor(
    findAll: (string, string) -> seq<string>,
    decode: string -> Result<Json, Error>)

  /** `extract_json`: decode the text, then descend to `competitionOdds`. */
  function ExtractJson(text: string, x: Extractor): (r: Result<Json, Error>)
    ensures x.decode(text).Failure? ==> r == Failure(x.decode(text).error)
    ensures x.decode(text).Success? ==> r == Walk(x.decode(text).value, CompetitionOddsPath)
  {
    var page :- x.decode(text);
    Walk(page, CompetitionOddsPath)
  }

  /** `get_odds`: no embedded payload is not an error but an empty list;
      otherwise only the first match is decoded. Decoding and descent errors propagate. */
  function GetOdds(html: string, x: Extractor): (r: Result<Json, Error>)
    ensures |x.findAll(JsonRegex, html)| == 0 ==> r == Success(JArr([]))
    ensures |x.findAll(JsonRegex, html)| > 0 ==> r == ExtractJson(x.findAll(JsonRegex, html)[0], x)
  {
    var found := x.findAll(JsonRegex, html);
    if |found| > 0 then ExtractJson(found[0], x) else Success(JArr([]))
  }

  /** A page whose first payload decodes to a value holding `odds` at
      `props.initialState.oddsPageState.pageState.data.competitionOdds` yields
      exactly that node, whatever else the payload and the later matches hold. */
  lemma GetOddsReachesCompetitionOdds(html: string, x: Extractor, odds: Json)
    requires |x.findAll(JsonRegex, html)| > 0
    requires x.decode(x.findAll(JsonRegex, html)[0]).Success?
    requires Reaches(x.decode(x.findAll(JsonRegex, html)[0]).value, CompetitionOddsPath, odds)
    ensures GetOdds(html, x) == Success(odds)
  {
    WalkReaches(x.decode(x.findAll(JsonRegex, html)[0]).value, CompetitionOddsPath, odds);
  }

  /** Every failure of `get_odds` is a decoding error of the first match, a missing
      key of the descent path, or a step into a value that is not a dict. */
  lemma GetOddsFailure(html: string, x: Extractor)
    requires GetOdds(html, x).Failure?
    ensures |x.findAll(JsonRegex, html)| > 0
    ensures var e := GetOdds(html, x).error;
            var first := x.findAll(JsonRegex, html)[0];
            || x.decode(first) == Failure(e)
            || e == TypeError
            || (e.KeyError? && e.key in CompetitionOddsPath)
  {
    var first := x.findAll(JsonRegex, html)[0];
    if x.decode(first).Success? {
      WalkFailure(x.decode(first).value, CompetitionOddsPath);
    }
  }
}

=== FILE: scrape.dfy ===
/** `scrape_games`: after the page is fetched, one record per event of the first
    embedded payload, in payload order. */
module Scrape {
  import opened Wrappers
  import opened Json
  import opened Coerce
  import opened Builder
  import opened Payload
  import opened Normalize
  import GameDataFacts

  /** `for event in odds: games.append(f(event))`: one result per event, in order. */
  method MapEvents(events: seq<Json>, f: Json -> Record) returns (games: seq<Record>)
    ensures |games| == |events|
    ensures forall j :: 0 <= j < |events| ==> games[j] == f(events[j])
  {
    games := [];
    var k := 0;
    while k < |events|
      invariant 0 <= k <= |events|
      invariant |games| == k
      invariant forall j :: 0 <= j < k ==> games[j] == f(events[j])
    {
      games := games + [f(events[k])];
      k := k + 1;
    }
  }

  /** Iterating a dict visits its keys, which are strings; a string event has no
      `scheduledTime`, so each of its records is the empty dict. */
  lemma DictOddsYieldEmptyRecords(odds: Json, zone: Zone, line: string, p: Parsers)
    requires odds.JObj?
    ensures Iterate(odds).Success?
    ensures forall k :: 0 <= k < |Iterate(odds).value| ==> GameData(Iterate(odds).value[k], zone, line, p) == []
  {
    var events := Iterate(odds).value;
    forall k | 0 <= k < |events|
      ensures GameData(events[k], zone, line, p) == []
    {
      GameDataFacts.EmptyRecord(events[k], zone, line, p);
    }
  }

  /** `scrape_games(sport, current_line, time_zone)` once the page text `html` is in
      hand. `zone` is `local_tz`: the named zone, the machine's zone when none is
      named, or the exception resolving the name raised. An exception from `get_odds`,
      from resolving the zone or from iterating the odds ends the call; exceptions
      inside one event are swallowed by `get_game_data`. */
  method ScrapeGames(html: string, x: Extractor, zone: Result<Zone, Error>, currentLine: bool, p: Parsers)
    returns (r: Result<seq<Record>, Error>)
    ensures GetOdds(html, x).Failure? ==> r == Failure(GetOdds(html, x).error)
    ensures GetOdds(html, x).Success? && zone.Failure? ==> r == Failure(zone.error)
    ensures GetOdds(html, x).Success? && zone.Success? ==>
              var events := Iterate(GetOdds(html, x).value);
              && (events.Failure? ==> r == Failure(events.error))
              && (events.Success? ==>
                    && r.Success? && |r.value| == |events.value|
                    && forall k :: 0 <= k < |events.value| ==>
                         r.value[k] == GameData(events.value[k], zone.value, LinePrefix(currentLine), p))
    ensures |x.findAll(JsonRegex, html)| == 0 && zone.Success? ==> r == Success([])
    ensures GetOdds(html, x).Success? && GetOdds(html, x).value.JObj? && r.Success? ==>
              forall k :: 0 <= k < |r.value| ==> r.value[k] == []
  {
    var line := LinePrefix(currentLine);
    var odds := GetOdds(html, x);
    if odds.Failure? {
      return Failure(odds.error);
    }
    if zone.Failure? {
      return Failure(zone.error);
    }
    var events := Iterate(odds.value);
    if events.Failure? {
      return Failure(events.error);
    }
    var games := MapEvents(events.value, e => GameData(e, zone.value, line, p));
    if odds.value.JObj? {
      DictOddsYieldEmptyRecords(odds.value, zone.value, line, p);
    }
    return Success(games);
  }
}

=== FILE: wrappers.dfy ===
/** Failure-compatible Option and Result types, usable with `:-`. */
module Wrappers {

  datatype Option<+T> = None | Some(value: T)

  /** A value, or the Python exception that was raised instead of producing it. */
  datatype Result<+R, +E> = Success(value: R) | Failure(error: E) {

    predicate IsFailure() {
      Failure?
    }

    function PropagateFailure<U>(): Result<U, E>
      requires Failure?
    {
      Failure(error)
    }

    function Extract(): R
      requires Success?
    {
      value
    }
  }
}
